=== FILE: README.md ===
# Shadows on a polyhedron: a Dafny model

This project models the visibility core of `shadow/polyedr.py`, a small
program that projects a polyhedron along the vertical direction
`V = (0, 0, 1)`.

Every edge carries a list of *gaps*: closed parameter ranges of `[0, 1]` not
yet known to be hidden. Each facet casts a *shade* on an edge. The shade is
the part of the edge on the inner side of every side plane of the facet (each
side's horizontal normal turned away from the vertex mean) and below the
facet's own plane; for a convex facet the side planes bound the vertical
prism over the facet. Shadowing removes the shade from the gaps. `modification`
de-duplicates the polyhedron's edges and then shadows every facet's own edges
with every facet. It adds up the area of the facets that pass three tests:
- the facet's original centre lies outside the unit cube;
- its angle to `V` is at most `pi / 7`;
- none of its edges keeps a gap.

The model is purely functional and uses exact reals:

| module | file | models |
|---|---|---|
| `Vectors` | `vectors.dfy` | the `R3` point type: sum, difference, scaling, dot and cross products, list sum, mean |
| `Segments` | `segments.dfy` | `Segment`: degeneracy, `intersect`, `subtraction` |
| `Edges` | `edges.dfy` | `Edge`: `r3`, `intersect_edge_with_normal`, and the gap bookkeeping of `shadow` |
| `Facets` | `facets.dfy` | `Facet`: the edge lists, `h_normal`, `is_vertical`, `_vert`/`v_normals`, `center`, `origin_center`, `center_in_unit_cube`, `angle`, `facet_area` |
| `Shadows` | `shadows.dfy` | `Edge.shadow`, and shadowing by a list of facets |
| `Polyedrs` | `polyedrs.dfy` | `Polyedr.edges_uniq` and `Polyedr.modification` |
| `Options` | `options.dfy` | the `Option` type used for the early exits of `shadow` and for the `None` that `modification` returns when `angle()` raises |

Python mutates objects in place. The model returns new values instead:
- `Shadow(e, f)` is the edge after `e.shadow(f)`.
- `Modification(p, m)` returns the area, or `None` when `angle()` raises, together with the polyhedron as the method leaves it.

The source computes the shade as a fold of clips that stops as soon as the
shade becomes degenerate. The model pairs that fold with an independent
reference, the intersection of all clips (`FullShade`), and proves the two
agree. It proves that the reference contains every parameter strictly inside
the intersection of the side half-spaces and the half-space below the facet's
plane, and only parameters inside that intersection or on its boundary. For a
convex facet this intersection is the vertical prism over the facet, below
its plane. It then proves that a
parameter of an edge stays strictly inside a gap exactly when it was strictly
inside one and no facet hides it. A parameter on the boundary of the shade may
still end a gap, since gaps are closed.

For the area, the model pairs `modification` with `TotalArea`, a reference
sum over the facets. It proves that sum independent of the order in which
facets are visited.

`modification` adds a facet's area only when no edge of the facet keeps a
gap (`shadow/polyedr.py:235-240`); `Polyedrs.Counts` requires
`!KeepsGap(...)` accordingly.

`angle()` divides by the length of the oriented normal. When a facet's first
three vertices are collinear that normal is the zero vector, and
`modification` raises `ZeroDivisionError` at the first such facet whose
original centre is outside the unit cube (the test at line 237 evaluates
`angle()` only then). The model returns `None` in that case, together with
the facets as they stand when the exception leaves the loop.
`Polyedrs.CollinearFacetRaises` exhibits such a facet.

## Model

| member | source | states |
|---|---|---|
| Segments.IsDegenerate | shadow/polyedr.py:16-17 | `is_degenerate`: the start is not below the end; `Segments.DegenerateIffNoInterior` states what that means |
| Segments.DegenerateIffNoInterior | shadow/polyedr.py:16-17 | a segment is degenerate (`beg >= fin`) exactly when no real lies strictly inside it |
| Segments.Intersect | shadow/polyedr.py:20-25 | the result starts at the larger start and ends at the smaller end; its points, and its interior points, are exactly those common to both operands; it lies within both; it is degenerate whenever an operand is; intersecting a segment with itself changes nothing |
| Segments.Subtraction | shadow/polyedr.py:28-32 | always two pieces, the left one starting where `a` starts and the right one ending where `a` ends, both within `a`; a real is in a piece exactly when it is in `a` and not strictly inside `b`; it is strictly inside a piece exactly when it is strictly inside `a` and not in `b`; if `a` lies within `b` both pieces are degenerate |
| Segments.SubtractionShrinks | shadow/polyedr.py:28-32 | cutting a non-degenerate segment out of `a` leaves pieces whose lengths add up to at most the length of `a` |
| Edges.NewEdge | shadow/polyedr.py:40-44 | a new edge keeps its two ends and holds the whole range `[0, 1]` as its one gap; `Facets.WrapEdges` and `Polyedrs.MadeFacetIsFresh` state it for the facet's edges |
| Edges.PointAt | shadow/polyedr.py:68-70 | the point at parameter `t` is `beg + (fin - beg) * t`; parameter 0 gives `beg` and parameter 1 gives `fin` |
| Edges.SignedDistanceAlongEdge | shadow/polyedr.py:69-75 | along the edge, the signed distance from a plane is the linear interpolation of its values at the two ends |
| Edges.ClipRange | shadow/polyedr.py:75-81 | the three branches of `intersect_edge_with_normal` on the two signed distances; what they mean is stated by `Edges.ClipRangeCases` and `Edges.ClipRangeIsSublevelSet` |
| Edges.IntersectEdgeWithNormal | shadow/polyedr.py:72-81 | the clip of the edge by the half-space through `a` with outward normal `n`; its meaning is stated by `Edges.IntersectEdgeWithNormalCases` and `Edges.ClipIsHalfSpace` |
| Edges.ClipRangeCases | shadow/polyedr.py:75-81 | both ends on the outer side or on the plane give the empty range `[1, 0]`; both strictly inside give `[0, 1]`; mixed signs never divide by zero and cut `[0, 1]` at a parameter in `[0, 1]` where the interpolated distance is zero, keeping the side of the inner end |
| Edges.IntersectEdgeWithNormalCases | shadow/polyedr.py:72-81 | the same classification stated on the edge's two ends and the plane given by a point `a` and an outward normal `n` |
| Edges.ClipRangeIsSublevelSet | shadow/polyedr.py:75-81 | on `[0, 1]`, every parameter whose interpolated distance is negative is kept, and every kept parameter has a distance of at most zero |
| Edges.ClipIsHalfSpace | shadow/polyedr.py:72-81 | for `t` in `[0, 1]`, a point of the edge strictly inside the half-space is kept, and a kept parameter's point is inside the half-space or on its plane |
| Edges.Pieces | shadow/polyedr.py:64 | each gap yields two pieces, each within the gap it came from, and no point of any piece is strictly inside the shade |
| Edges.PiecesOpen | shadow/polyedr.py:64 | a parameter is strictly inside some piece exactly when it is strictly inside some gap and not in the closed shade |
| Edges.PiecesShrink | shadow/polyedr.py:64 | with a non-degenerate shade, the pieces' total length is at most the gaps' total length |
| Edges.NonDegenerate | shadow/polyedr.py:65-66 | keeps exactly the non-degenerate segments, drawn from the input; the interior points and the total length are unchanged |
| Edges.CutShade | shadow/polyedr.py:63-66 | the new gaps are non-degenerate and each lies within an old gap; none reaches into the shade's interior; a parameter stays strictly inside a gap exactly when it was and is not in the shade; the total length does not grow |
| Edges.EmptyIffNoOpenPoint | shadow/polyedr.py:234-236 | a list of non-degenerate gaps is empty exactly when no parameter is strictly inside any of them |
| Facets.WrapEdges | shadow/polyedr.py:92-99 | one edge per vertex; edge `i` ends at vertex `i` and starts with the whole range as its one gap; vertex `i` is where the next edge (wrapping around) begins, so the edges close the polygon |
| Facets.MakeFacet | shadow/polyedr.py:88-99 | the facet keeps both vertex lists and builds the closed boundary edges for each |
| Facets.HNormal | shadow/polyedr.py:105-110 | the plane normal of the first three vertices, turned to point along `V`; stated by `Facets.HNormalIsOrientedNormal` |
| Facets.HNormalIsOrientedNormal | shadow/polyedr.py:105-110 | the oriented normal never points against `V`; it is the plane normal up to sign; it is orthogonal to the facet's first two sides; it is orthogonal to `V` exactly when the plane normal is |
| Facets.IsVertical | shadow/polyedr.py:100-103 | the oriented normal is orthogonal to `V`; `Facets.IsVerticalIff` states what that means for the facet's vertices |
| Facets.IsVerticalIff | shadow/polyedr.py:102-110 | a facet is vertical exactly when its plane normal is orthogonal to `V`, whatever its orientation; equivalently its first three vertices project onto a line |
| Facets.Vert | shadow/polyedr.py:118-122 | the side normal of edge `k`, turned away from the centre; stated by `Facets.VertIsOutwardSide` |
| Facets.VNormals | shadow/polyedr.py:112-116 | one side normal per vertex, the `k`-th being that of the edge ending at vertex `k` |
| Facets.VertIsOutwardSide | shadow/polyedr.py:112-122 | the side normal of edge `k` is horizontal and orthogonal to that edge; the facet's centre is on its non-positive side |
| Facets.Center | shadow/polyedr.py:124-127 | the mean of the vertices; `Vectors.MeanScalesToSum`, `Vectors.MeanIsCentroid` and `Vectors.MeanIsUnique` state what the mean is |
| Facets.OriginCenter | shadow/polyedr.py:129-131 | the mean of the original vertices, stated by the same three lemmas |
| Vectors.MeanScalesToSum | shadow/polyedr.py:125-131 | the centre multiplied by the vertex count is the sum of the vertices |
| Vectors.MeanIsCentroid | shadow/polyedr.py:125-131 | the offsets of the vertices from the centre sum to zero |
| Vectors.MeanIsUnique | shadow/polyedr.py:125-131 | no other point has offsets summing to zero |
| Facets.CenterInUnitCube | shadow/polyedr.py:133-137 | every coordinate of the original centre is at most 1/2 in absolute value; `Facets.CenterInUnitCubeIsBox` and `Facets.CenterInUnitCubeBySum` restate it as a box and on the vertex sum |
| Facets.CenterInUnitCubeIsBox | shadow/polyedr.py:133-137 | the test holds exactly when every coordinate of the original centre lies in `[-1/2, 1/2]` |
| Facets.CenterInUnitCubeBySum | shadow/polyedr.py:129-137 | the test holds exactly when every coordinate of the sum of the original vertices is at most half the vertex count in absolute value |
| Facets.AngleDefined | shadow/polyedr.py:139-144 | `angle()` returns only when the oriented normal is not the zero vector, since it divides by that normal's length |
| Facets.AngleDefinedIff | shadow/polyedr.py:105-144 | `angle()` is defined exactly when the plane normal of the first three vertices is non-zero, that is when they are not collinear |
| Facets.CollinearNoAngle | shadow/polyedr.py:105-144 | at a facet whose vertices are exactly `(10, 0, 0)`, `(11, 0, 0)`, `(12, 0, 0)`, `angle()` is undefined |
| Facets.CollinearOutsideCube | shadow/polyedr.py:129-137 | the original centre of those three vertices, `(11, 0, 0)`, lies outside the unit cube |
| Facets.Angle | shadow/polyedr.py:139-144 | the angle between `V` and the oriented normal, through the opaque `Measures.angleToV`; required to be defined |
| Facets.TriangleArea | shadow/polyedr.py:146-151 | half the opaque length of the cross product of two sides |
| Facets.FanArea | shadow/polyedr.py:146-157 | with lengths never negative, the fan of triangles has non-negative area |
| Facets.FacetArea | shadow/polyedr.py:153-157 | with lengths never negative, a facet's area is non-negative |
| Shadows.IntersectAllMembership | shadow/polyedr.py:52-60 | a parameter is in the intersection of a start range and a list of clips exactly when it is in the start range and in every clip |
| Shadows.ClipSidesAgrees | shadow/polyedr.py:52-56 | the early-exit fold over the side clips gives the full intersection when that is non-degenerate, and gives nothing exactly when it is degenerate |
| Shadows.ClipSides | shadow/polyedr.py:52-56 | the side clips applied in order, stopping with nothing once the shade is degenerate; `Shadows.ClipSidesAgrees` relates it to the full intersection |
| Shadows.ShadeOf | shadow/polyedr.py:47-62 | the shade `shadow` computes, or nothing on each early return; `Shadows.ShadeOfIsFullShade` relates it to the full shade |
| Shadows.ShadeOfIsFullShade | shadow/polyedr.py:47-62 | the shade `shadow` computes is none for a vertical facet or a degenerate full shade, and otherwise the full shade |
| Shadows.FullShadeMembership | shadow/polyedr.py:52-62 | a parameter is in the full shade exactly when it is in `[0, 1]`, in every side clip and in the clip by the facet's plane |
| Shadows.FullShadeIsShadowVolume | shadow/polyedr.py:52-62 | for `t` in `[0, 1]`: every parameter of the shade lies inside or on every side plane and on or below the facet's plane; every parameter strictly inside all of them is in the shade. The shade sits between the open and the closed intersection of these half-spaces, which is the prism only for a convex facet; it is neither in general (an edge lying in a side plane gets the empty clip) |
| Shadows.ShadeIgnoresGaps | shadow/polyedr.py:52-62 | the shade depends only on the edge's ends, not on its gaps |
| Shadows.Shadow | shadow/polyedr.py:47-66 | `Edge.shadow` keeps the edge's ends and changes only its gaps; `Shadows.ShadowCases`, `Shadows.ShadowShrinks` and `Shadows.ShadowOpen` state how |
| Shadows.ShadowCases | shadow/polyedr.py:47-66 | a vertical facet or a degenerate shade leaves the edge exactly as it was; otherwise every remaining gap is non-degenerate and none reaches into the shade's interior |
| Shadows.ShadowShrinks | shadow/polyedr.py:63-66 | each new gap lies within an old one; non-degenerate gaps stay so; the total length does not grow |
| Shadows.ShadowOpen | shadow/polyedr.py:47-66 | a parameter stays strictly inside a gap exactly when it was and the facet does not hide it |
| Shadows.ShadowAll | shadow/polyedr.py:232-233 | `e.shadow(g)` for every facet `g` in order, which keeps the edge's ends; `Shadows.ShadowAllShrinks` and `Shadows.ShadowAllOpen` state the result |
| Shadows.ShadowAllShrinks | shadow/polyedr.py:231-233 | after every facet, each gap lies within an old gap (so within `[0, 1]` if they started there); non-degenerate gaps stay so; the total length does not grow |
| Shadows.ShadowAllOpen | shadow/polyedr.py:231-233 | a parameter stays strictly inside a gap after every facet exactly when it was strictly inside one and no facet hides it |
| Shadows.ShadowAllSnoc | shadow/polyedr.py:232-233 | shadowing by one more facet applies `shadow` once more to the result, so the order-of-call semantics of the loop are those of a left fold |
| Shadows.CoveredByAnyIsSomeFacet | shadow/polyedr.py:232-233 | the recursive "hidden by some facet" test holds exactly when some facet of the list hides the parameter |
| Shadows.VerticalFacetsChangeNothing | shadow/polyedr.py:48-50 | any number of vertical facets leave an edge exactly as it was |
| Shadows.FullyShadowedIff | shadow/polyedr.py:231-236 | an edge with non-degenerate gaps ends with no gap exactly when every parameter strictly inside one of its gaps is hidden by some facet |
| Polyedrs.EdgesUniq | shadow/polyedr.py:211-216 | the kept edges are the first edge of each class of edges joining the same two points, in input order; no two kept edges join the same points; every input edge has a kept representative; every kept edge is an input edge |
| Polyedrs.ShadowByAll | shadow/polyedr.py:232-233 | the loop over all facets computes the left fold of `shadow` over them |
| Polyedrs.ShadowFacetEdges | shadow/polyedr.py:230-236 | each edge of the facet is shadowed by every facet, and `flag` is raised exactly when some shadowed edge keeps a gap |
| Polyedrs.KeepsGap | shadow/polyedr.py:230-236 | the `flag` of `modification`: some edge of the list still holds a gap; `Polyedrs.ShadowFacetEdges` shows the loop computes it and `Polyedrs.CountsIffEveryGapHidden` states what it means |
| Polyedrs.Counts | shadow/polyedr.py:237-239 | the three-part test, with `angle()` evaluated only for a centre outside the cube; `Polyedrs.CountsIffEveryGapHidden` states what the gap part means |
| Polyedrs.Raises | shadow/polyedr.py:237-238 | the test raises at a facet whose centre is outside the unit cube and whose `angle()` is undefined |
| Polyedrs.CollinearFacetRaises | shadow/polyedr.py:237-238 | the facet built from those three points is valid and makes `modification` raise, so the error path is reachable |
| Polyedrs.Contribution | shadow/polyedr.py:237-240 | a facet adds its area when it passes the test, and nothing otherwise |
| Polyedrs.TotalArea | shadow/polyedr.py:227-241 | the contributions of the facets summed in order; `Polyedrs.TotalAreaNonNegative` and `Polyedrs.TotalAreaOrderIndependent` state its properties |
| Polyedrs.FacetContribution | shadow/polyedr.py:237-240 | at a facet where `angle()` does not raise, the test adds the facet's contribution, which is either nothing or its area |
| Polyedrs.RaisedState | shadow/polyedr.py:229-238 | when the facet at index `i` is the first to raise, the facets up to and including it have their edges shadowed and the later ones are untouched |
| Polyedrs.VisitFacets | shadow/polyedr.py:229-241 | the facets loop raises exactly when some facet raises; otherwise it returns the in-order sum of the contributions; each facet it reached has its edges shadowed by every facet, and the others are untouched |
| Polyedrs.Modification | shadow/polyedr.py:226-241 | returns `None` exactly when some facet raises in `angle()`, and otherwise the sum over the facets, in order, of the area of those that pass the three tests; the edge list becomes the de-duplicated one; each facet reached has its edges replaced by their shadowed versions, and nothing else changes |
| Polyedrs.TotalAreaNonNegative | shadow/polyedr.py:226-241 | with lengths never negative, the total area is never negative |
| Polyedrs.TotalAreaOrderIndependent | shadow/polyedr.py:229-241 | visiting the facets in any order that is a permutation of the list gives the same total |
| Polyedrs.CountsIffEveryGapHidden | shadow/polyedr.py:229-240 | when every edge starts with non-degenerate gaps, the gap test passes exactly when every parameter strictly inside a gap of every edge is hidden by some facet |
| Polyedrs.FreshFacetCountsIffEdgesHidden | shadow/polyedr.py:229-240 | for a facet whose edges still hold the whole range, the gap test passes exactly when every parameter strictly between 0 and 1 of every edge is hidden by some facet |
| Polyedrs.MadeFacetIsFresh | shadow/polyedr.py:88-99 | a facet built from at least three vertices is valid, and its edges hold the whole range as their one gap |

## Left out

- `Polyedr.__init__` (file reading, the rotation by Euler angles, the homothety and the global `h`) is not modelled, because it is I/O and floating-point set-up. A `Polyedr` is given directly by its facets and edges.
- `Polyedr.draw` and the `TkDrawer` collaborator are not modelled, because they are display output.
- `common/r3.py` is not part of this model. `Vectors.Vec3` stands in for `R3` with exact real coordinates, and only the operations the core uses are defined.
- `Polyedrs.EdgesUniq` assumes that points compare and hash by value, as the dictionary keys of `edges_uniq` need. `R3`'s equality is not visible.
- `Facets.Angle`: `acos` and `sqrt` are not modelled, because they are transcendental. The angle is an opaque map `Measures.angleToV` from the oriented normal to a real, and `pi / 7` is the parameter `Measures.piOver7`.
- `Facets.TriangleArea`: `sqrt` of the squared norm is the opaque `Measures.length`, so the area results assume only what that map gives.
- Floating-point rounding is not modelled: every quantity is an exact real. The exact comparison `== 0.0` in `is_vertical` and the division in `intersect_edge_with_normal` are modelled exactly.
- Facets with fewer than three vertices are excluded by a precondition (`Facets.Valid`, `Shadows.CanCast`). In the source, `h_normal` raises `IndexError` on them and `center` raises `ZeroDivisionError` on an empty facet, so callers must not pass them.
- The two unit tests in `tests/test_my_tests.py` check end-to-end totals on polyhedra read from fixture files. The model starts from facets already built, so those totals are not stated.
- `Shadows.FullShadeIsShadowVolume` is stated on the side half-spaces, not on the vertical prism over the facet. The two coincide only for a convex facet, which the source assumes and the model neither requires nor proves; for a non-convex facet (an L-shape, say) the shade can miss parts of the prism.
- `Modification` returns the area and the polyhedron after the call. Python mutates the facets' edges and the edge list in place. When `angle()` raises, Python propagates the exception; the model returns `None` with the state the mutations left.

=== FILE: edges.dfy ===
/**
  Edges of the polyhedron: a 3-D segment from `beg` to `fin` parametrised over
  `[0, 1]`, plus the list of parameter ranges ("gaps") not yet proved to be in
  shadow. This module holds the half-space clip of an edge and the
  bookkeeping that removes a shade from the gaps.
 */
module Edges {
  import opened Vectors
  import opened Segments

  /** Ends of the standard parameter range of an edge. */
  const SBeg: real := 0.0
  const SFin: real := 1.0

  const FullRange: Segment := Segment(SBeg, SFin)

  datatype Edge = Edge(beg: Vec3, fin: Vec3, gaps: seq<Segment>)

  /** A fresh edge: the whole parameter range is one gap. */
  function NewEdge(beg: Vec3, fin: Vec3): Edge {
    Edge(beg, fin, [FullRange])
  }

  /** `Edge.r3`: the point of the edge at parameter `t`. */
  function PointAt(e: Edge, t: real): (p: Vec3)
    ensures p == Add(e.beg, Scale(Sub(e.fin, e.beg), t))
    ensures t == SBeg ==> p == e.beg
    ensures t == SFin ==> p == e.fin
  {
    Add(Scale(e.beg, SFin - t), Scale(e.fin, t))
  }

  /** Signed distance (up to the length of `n`) of `p` from the plane through `a` with normal `n`. */
  function SignedDistance(p: Vec3, a: Vec3, n: Vec3): real {
    Dot(n, Sub(p, a))
  }

  /** The interpolation `beg * (1 - t) + fin * t` of three values measured from a common `a`. */
  lemma ScalarAffine(b: real, f: real, a: real, t: real)
    ensures (1.0 - t) * b + t * f - a == (b - a) + t * ((f - a) - (b - a))
  {
  }

  /** Along an edge the signed distance moves linearly between its values at the two ends. */
  lemma SignedDistanceAlongEdge(e: Edge, a: Vec3, n: Vec3, t: real)
    ensures SignedDistance(PointAt(e, t), a, n)
         == SignedDistance(e.beg, a, n) + t * (SignedDistance(e.fin, a, n) - SignedDistance(e.beg, a, n))
  {
    var b, f := e.beg, e.fin;
    var sb, sf := Scale(b, SFin - t), Scale(f, t);
    assert PointAt(e, t) == Add(sb, sf);
    DotIsLinear(n, Add(sb, sf), a, t);
    DotIsLinear(n, sb, sf, t);
    DotIsLinear(n, b, a, SFin - t);
    DotIsLinear(n, f, a, t);
    ScalarAffine(Dot(n, b), Dot(n, f), Dot(n, a), t);
  }

  /**
    The range computation of `Edge.intersect_edge_with_normal`, on the signed
    distances `f0` and `f1` of the two ends.
   */
  function ClipRange(f0: real, f1: real): Segment {
    if f0 >= 0.0 && f1 >= 0.0 then Segment(SFin, SBeg)
    else if f0 < 0.0 && f1 < 0.0 then Segment(SBeg, SFin)
    else
      var x := - f0 / (f1 - f0);
      if f0 < 0.0 then Segment(SBeg, x) else Segment(x, SFin)
  }

  /**
    The classification at the heart of the clip: both ends outside or on the
    plane gives the empty `[1, 0]`, both inside the whole `[0, 1]`, and mixed
    signs cut the range inside `[0, 1]` at the zero of the linear
    interpolation between the two signed distances.
   */
  lemma ClipRangeCases(f0: real, f1: real)
    ensures var r := ClipRange(f0, f1);
      && (f0 >= 0.0 && f1 >= 0.0 ==> r == Segment(SFin, SBeg))
      && (f0 < 0.0 && f1 < 0.0 ==> r == FullRange)
      && (f0 < 0.0 <= f1 ==> f1 != f0 && r.beg == SBeg && SBeg <= r.fin <= SFin && f0 + r.fin * (f1 - f0) == 0.0)
      && (f1 < 0.0 <= f0 ==> f1 != f0 && r.fin == SFin && SBeg <= r.beg <= SFin && f0 + r.beg * (f1 - f0) == 0.0)
  {
    if !(f0 >= 0.0 && f1 >= 0.0) && !(f0 < 0.0 && f1 < 0.0) {
      var x := - f0 / (f1 - f0);
      assert x * (f1 - f0) == - f0;
      if f0 < 0.0 {
        assert f1 - f0 > 0.0 && -f0 <= f1 - f0;
      } else {
        assert f0 - f1 > 0.0 && f0 <= f0 - f1 && x == f0 / (f0 - f1);
      }
    }
  }

  /**
    On `[0, 1]` the clipped range is the sublevel set of the interpolated
    signed distance: strictly negative parameters are kept, and every kept
    parameter is non-positive.
   */
  lemma ClipRangeIsSublevelSet(f0: real, f1: real, t: real)
    requires SBeg <= t <= SFin
    ensures f0 + t * (f1 - f0) < 0.0 ==> Contains(ClipRange(f0, f1), t)
    ensures Contains(ClipRange(f0, f1), t) ==> f0 + t * (f1 - f0) <= 0.0
  {
    var r := ClipRange(f0, f1);
    var ft := f0 + t * (f1 - f0);
    ClipRangeCases(f0, f1);
    if f0 >= 0.0 && f1 >= 0.0 {
      MulSign(1.0 - t, f0);
      MulSign(t, f1);
      assert ft == (1.0 - t) * f0 + t * f1;
    } else if f0 < 0.0 && f1 < 0.0 {
      MulSign(f0, 1.0 - t);
      MulSign(f1, t);
      assert ft == f0 * (1.0 - t) + f1 * t;
    } else {
      var x := if f0 < 0.0 then r.fin else r.beg;
      Shifted(f0, f1 - f0, x, t);
      MulSign(t - x, f1 - f0);
      MulSign(x - t, f0 - f1);
      assert ft == (t - x) * (f1 - f0);
    }
  }

  /** The sign of a product from the signs of its factors. */
  lemma MulSign(a: real, b: real)
    ensures a >= 0.0 && b >= 0.0 ==> a * b >= 0.0
    ensures a <= 0.0 && b >= 0.0 ==> a * b <= 0.0
    ensures a > 0.0 && b > 0.0 ==> a * b > 0.0
  {
  }

  /** A linear function through its zero `x`, written relative to that zero. */
  lemma Shifted(c: real, d: real, x: real, t: real)
    requires c + x * d == 0.0
    ensures c + t * d == (t - x) * d
    ensures (t - x) * d == (x - t) * -d
  {
  }

  /**
    `Edge.intersect_edge_with_normal`: the parameter range of the edge that
    lies in the half-space `n . (p - a) < 0` bounded by the plane through `a`
    with outward normal `n`; an end exactly on the plane counts as outside.
   */
  function IntersectEdgeWithNormal(e: Edge, a: Vec3, n: Vec3): Segment {
    ClipRange(SignedDistance(e.beg, a, n), SignedDistance(e.fin, a, n))
  }

  /** The classification of `ClipRange`, in terms of the edge's ends and the plane. */
  lemma IntersectEdgeWithNormalCases(e: Edge, a: Vec3, n: Vec3)
    ensures var r, f0, f1 := IntersectEdgeWithNormal(e, a, n), SignedDistance(e.beg, a, n), SignedDistance(e.fin, a, n);
      && (f0 >= 0.0 && f1 >= 0.0 ==> r == Segment(SFin, SBeg))
      && (f0 < 0.0 && f1 < 0.0 ==> r == FullRange)
      && (f0 < 0.0 <= f1 ==> f1 != f0 && r.beg == SBeg && SBeg <= r.fin <= SFin
                             && f0 + r.fin * (f1 - f0) == 0.0)
      && (f1 < 0.0 <= f0 ==> f1 != f0 && r.fin == SFin && SBeg <= r.beg <= SFin
                             && f0 + r.beg * (f1 - f0) == 0.0)
  {
    ClipRangeCases(SignedDistance(e.beg, a, n), SignedDistance(e.fin, a, n));
  }

  /**
    The clip is the half-space restricted to the edge: a parameter in `[0, 1]`
    whose point is strictly inside is kept, and every kept parameter's point
    is inside or on the plane.
   */
  lemma ClipIsHalfSpace(e: Edge, a: Vec3, n: Vec3, t: real)
    requires SBeg <= t <= SFin
    ensures SignedDistance(PointAt(e, t), a, n) < 0.0 ==> Contains(IntersectEdgeWithNormal(e, a, n), t)
    ensures Contains(IntersectEdgeWithNormal(e, a, n), t) ==> SignedDistance(PointAt(e, t), a, n) <= 0.0
  {
    SignedDistanceAlongEdge(e, a, n, t);
    ClipRangeIsSublevelSet(SignedDistance(e.beg, a, n), SignedDistance(e.fin, a, n), t);
  }

  // ---------------------------------------------------------------------
  // Gap bookkeeping

  /** Some segment of `ss` has `t` in its interior. */
  predicate InOpen(ss: seq<Segment>, t: real) {
    exists k :: 0 <= k < |ss| && InInterior(ss[k], t)
  }

  predicate AllNonDegenerate(ss: seq<Segment>) {
    forall k :: 0 <= k < |ss| ==> !IsDegenerate(ss[k])
  }

  predicate AllWithin(ss: seq<Segment>, outer: Segment) {
    forall k :: 0 <= k < |ss| ==> Within(ss[k], outer)
  }

  /** `s` lies within some segment of `outer`. */
  predicate CoveredBy(s: Segment, outer: seq<Segment>) {
    exists j :: 0 <= j < |outer| && Within(s, outer[j])
  }

  /** Every segment of `inner` lies within some segment of `outer`. */
  predicate Refines(inner: seq<Segment>, outer: seq<Segment>) {
    forall k :: 0 <= k < |inner| ==> CoveredBy(inner[k], outer)
  }

  /** Total length of a list of segments, degenerate ones counting zero. */
  function Measure(ss: seq<Segment>): real {
    if |ss| == 0 then 0.0 else Length(ss[0]) + Measure(ss[1..])
  }

  lemma {:induction false} MeasureAppend(a: seq<Segment>, b: seq<Segment>)
    ensures Measure(a + b) == Measure(a) + Measure(b)
  {
    if |a| > 0 {
      assert (a + b)[0] == a[0];
      assert (a + b)[1..] == a[1..] + b;
      MeasureAppend(a[1..], b);
    } else {
      assert a + b == b;
    }
  }

  lemma InOpenAppend(a: seq<Segment>, b: seq<Segment>, t: real)
    ensures InOpen(a + b, t) <==> InOpen(a, t) || InOpen(b, t)
  {
    if InOpen(a + b, t) {
      var k :| 0 <= k < |a + b| && InInterior((a + b)[k], t);
      if k >= |a| {
        assert InInterior(b[k - |a|], t);
      }
    }
    if InOpen(b, t) {
      var k :| 0 <= k < |b| && InInterior(b[k], t);
      assert (a + b)[|a| + k] == b[k];
    }
    if InOpen(a, t) {
      var k :| 0 <= k < |a| && InInterior(a[k], t);
      assert (a + b)[k] == a[k];
    }
  }

  /** `[s.subtraction(shade) for s in gaps]`, concatenated in order. */
  function Pieces(gaps: seq<Segment>, shade: Segment): (r: seq<Segment>)
    ensures |r| == 2 * |gaps|
    ensures forall k :: 0 <= k < |r| ==> Within(r[k], gaps[k / 2])
    ensures forall k, t :: 0 <= k < |r| && Contains(r[k], t) ==> !InInterior(shade, t)
  {
    if |gaps| == 0 then []
    else
      var head, tail := Subtraction(gaps[0], shade), Pieces(gaps[1..], shade);
      var r := head + tail;
      assert forall k :: 2 <= k < |r| ==> r[k] == tail[k - 2] && gaps[k / 2] == gaps[1..][(k - 2) / 2];
      r
  }

  /** A parameter is inside some piece exactly when it is inside some gap and not in the closed shade. */
  lemma {:induction false} PiecesOpen(gaps: seq<Segment>, shade: Segment, t: real)
    ensures InOpen(Pieces(gaps, shade), t) <==> InOpen(gaps, t) && !Contains(shade, t)
  {
    if |gaps| > 0 {
      var head, tail := Subtraction(gaps[0], shade), Pieces(gaps[1..], shade);
      assert Pieces(gaps, shade) == head + tail;
      PiecesOpen(gaps[1..], shade, t);
      InOpenAppend(head, tail, t);
      assert InOpen(head, t) <==> InInterior(head[0], t) || InInterior(head[1], t);
      InOpenAppend([gaps[0]], gaps[1..], t);
      assert [gaps[0]] + gaps[1..] == gaps;
      assert InOpen([gaps[0]], t) <==> InInterior(gaps[0], t);
    }
  }

  /** Cutting a non-degenerate shade out of every gap does not add length. */
  lemma {:induction false} PiecesShrink(gaps: seq<Segment>, shade: Segment)
    requires !IsDegenerate(shade)
    ensures Measure(Pieces(gaps, shade)) <= Measure(gaps)
  {
    if |gaps| > 0 {
      var head, tail := Subtraction(gaps[0], shade), Pieces(gaps[1..], shade);
      assert Pieces(gaps, shade) == head + tail;
      PiecesShrink(gaps[1..], shade);
      MeasureAppend(head, tail);
      assert Measure(head) == Length(head[0]) + Length(head[1]) by {
        assert head[1..][1..] == [];
      }
      SubtractionShrinks(gaps[0], shade);
      assert Measure(gaps) == Length(gaps[0]) + Measure(gaps[1..]);
    }
  }

  /** `[s for s in ss if not s.is_degenerate()]`. */
  function NonDegenerate(ss: seq<Segment>): (r: seq<Segment>)
    ensures AllNonDegenerate(r)
    ensures forall k :: 0 <= k < |r| ==> r[k] in ss
    ensures forall s :: s in ss && !IsDegenerate(s) ==> s in r
    ensures forall t :: InOpen(r, t) <==> InOpen(ss, t)
    ensures Measure(r) == Measure(ss)
  {
    if |ss| == 0 then []
    else
      var head := if IsDegenerate(ss[0]) then [] else [ss[0]];
      var tail := NonDegenerate(ss[1..]);
      assert forall t :: InOpen(head + tail, t) <==> InOpen(ss, t) by {
        forall t
          ensures InOpen(head + tail, t) <==> InOpen(ss, t)
        {
          InOpenAppend(head, tail, t);
          InOpenAppend([ss[0]], ss[1..], t);
          assert [ss[0]] + ss[1..] == ss;
        }
      }
      MeasureAppend(head, tail);
      head + tail
  }

  /**
    The new gap list of `Edge.shadow` once the shade is known: every gap
    loses the shade and degenerate leftovers are dropped.
   */
  function CutShade(gaps: seq<Segment>, shade: Segment): (r: seq<Segment>)
    ensures AllNonDegenerate(r)
    ensures Refines(r, gaps)
    ensures forall k, t :: 0 <= k < |r| && Contains(r[k], t) ==> !InInterior(shade, t)
    ensures forall t :: InOpen(r, t) <==> InOpen(gaps, t) && !Contains(shade, t)
    ensures !IsDegenerate(shade) ==> Measure(r) <= Measure(gaps)
  {
    var pieces := Pieces(gaps, shade);
    var r := NonDegenerate(pieces);
    assert forall t :: InOpen(r, t) <==> InOpen(gaps, t) && !Contains(shade, t) by {
      forall t
        ensures InOpen(r, t) <==> InOpen(gaps, t) && !Contains(shade, t)
      {
        PiecesOpen(gaps, shade, t);
      }
    }
    assert !IsDegenerate(shade) ==> Measure(r) <= Measure(gaps) by {
      if !IsDegenerate(shade) { PiecesShrink(gaps, shade); }
    }
    assert Refines(r, gaps) by {
      forall k | 0 <= k < |r|
        ensures CoveredBy(r[k], gaps)
      {
        var i :| 0 <= i < |pieces| && pieces[i] == r[k];
        assert Within(r[k], gaps[i / 2]);
      }
    }
    assert forall k, t :: 0 <= k < |r| && Contains(r[k], t) ==> !InInterior(shade, t) by {
      forall k, t | 0 <= k < |r| && Contains(r[k], t)
        ensures !InInterior(shade, t)
      {
        var i :| 0 <= i < |pieces| && pieces[i] == r[k];
      }
    }
    r
  }

  /** A refinement of gaps inside a range stays inside that range. */
  lemma RefinesKeepsWithin(inner: seq<Segment>, outer: seq<Segment>, range: Segment)
    requires Refines(inner, outer)
    requires AllWithin(outer, range)
    ensures AllWithin(inner, range)
  {
    forall k | 0 <= k < |inner|
      ensures Within(inner[k], range)
    {
      var j :| 0 <= j < |outer| && Within(inner[k], outer[j]);
    }
  }

  /** Refinement composes. */
  lemma RefinesTransitive(a: seq<Segment>, b: seq<Segment>, c: seq<Segment>)
    requires Refines(a, b) && Refines(b, c)
    ensures Refines(a, c)
  {
    forall k | 0 <= k < |a|
      ensures CoveredBy(a[k], c)
    {
      var i :| 0 <= i < |b| && Within(a[k], b[i]);
      var j :| 0 <= j < |c| && Within(b[i], c[j]);
      assert Within(a[k], c[j]);
    }
  }

  /** With no degenerate gap left, the gap list is empty exactly when no parameter is strictly inside a gap. */
  lemma EmptyIffNoOpenPoint(ss: seq<Segment>)
    requires AllNonDegenerate(ss)
    ensures |ss| == 0 <==> forall t :: !InOpen(ss, t)
  {
    if |ss| > 0 {
      assert InInterior(ss[0], (ss[0].beg + ss[0].fin) / 2.0);
      assert InOpen(ss, (ss[0].beg + ss[0].fin) / 2.0);
    }
  }
}

=== FILE: facets.dfy ===
/**
  Facets of the polyhedron: a closed polygon given by its transformed
  vertices, the parallel list of the same vertices in original coordinates,
  and one edge per vertex for each list. This module derives the half-spaces
  a facet casts a shadow with, and the predicates that decide whether its
  area is counted.
 */
module Facets {
  import opened Vectors
  import opened Segments
  import opened Edges

  /** `Polyedr.V`, the projection direction. */
  const V: Vec3 := Vec3(0.0, 0.0, 1.0)

  datatype Facet = Facet(
    vertexes: seq<Vec3>,
    originVertexes: seq<Vec3>,
    edges: seq<Edge>,
    originEdges: seq<Edge>)

  /**
    What the model requires of a facet: at least three vertices, and one
    original vertex for each transformed one.
   */
  predicate Valid(f: Facet) {
    |f.vertexes| >= 3 && |f.originVertexes| == |f.vertexes|
  }

  /** The index Python reaches with `k - 1`: the previous vertex, wrapping from 0 to the last. */
  function Prev(k: nat, n: nat): (p: nat)
    requires k < n
    ensures p < n
  {
    if k == 0 then n - 1 else k - 1
  }

  /** The index after `k`, wrapping from the last to 0; `Prev` undoes it. */
  function Next(k: nat, n: nat): (p: nat)
    requires k < n
    ensures p < n
    ensures Prev(p, n) == k
  {
    if k + 1 == n then 0 else k + 1
  }

  /**
    The edge list of `Facet.__init__`: edge `i` runs from vertex `i - 1` to
    vertex `i`, wrapping around, and starts with its whole range as one gap.
    Vertex `i` is where edge `i` ends and edge `i + 1` begins, so the edges
    form the closed boundary of the polygon.
   */
  function WrapEdges(vs: seq<Vec3>): (es: seq<Edge>)
    ensures |es| == |vs|
    ensures forall i :: 0 <= i < |es| ==> es[i].fin == vs[i] && es[i].gaps == [FullRange]
    ensures forall i :: 0 <= i < |es| ==> es[Next(i, |es|)].beg == vs[i]
  {
    seq(|vs|, i requires 0 <= i < |vs| => NewEdge(vs[Prev(i, |vs|)], vs[i]))
  }

  /** `Facet(vertexes, origin_vertexes)`. */
  function MakeFacet(vs: seq<Vec3>, ovs: seq<Vec3>): (f: Facet)
    ensures f.vertexes == vs && f.originVertexes == ovs
    ensures |f.edges| == |vs| && |f.originEdges| == |ovs|
    ensures forall i :: 0 <= i < |vs| ==> f.edges[Next(i, |vs|)].beg == vs[i] && f.edges[i].fin == vs[i]
    ensures forall i :: 0 <= i < |ovs| ==> f.originEdges[Next(i, |ovs|)].beg == ovs[i] && f.originEdges[i].fin == ovs[i]
    ensures forall i :: 0 <= i < |vs| ==> f.edges[i].gaps == [FullRange]
  {
    Facet(vs, ovs, WrapEdges(vs), WrapEdges(ovs))
  }

  /** Normal of the plane through the first three vertices, before orientation. */
  function PlaneNormal(f: Facet): Vec3
    requires |f.vertexes| >= 3
  {
    Cross(Sub(f.vertexes[1], f.vertexes[0]), Sub(f.vertexes[2], f.vertexes[0]))
  }

  /** `Facet.h_normal`: the plane normal, flipped when it points against `V`. */
  function HNormal(f: Facet): Vec3
    requires |f.vertexes| >= 3
  {
    var p := PlaneNormal(f);
    if Dot(p, V) < 0.0 then Scale(p, -1.0) else p
  }

  /**
    The oriented normal does not point against `V`, is the plane normal up
    to sign, and stays orthogonal to the facet's plane.
   */
  lemma HNormalIsOrientedNormal(f: Facet)
    requires |f.vertexes| >= 3
    ensures Dot(HNormal(f), V) >= 0.0
    ensures HNormal(f) == PlaneNormal(f) || HNormal(f) == Scale(PlaneNormal(f), -1.0)
    ensures Dot(HNormal(f), Sub(f.vertexes[1], f.vertexes[0])) == 0.0
    ensures Dot(HNormal(f), Sub(f.vertexes[2], f.vertexes[0])) == 0.0
    ensures Dot(HNormal(f), V) == 0.0 <==> Dot(PlaneNormal(f), V) == 0.0
  {
    var p := PlaneNormal(f);
    CrossIsOrthogonal(Sub(f.vertexes[1], f.vertexes[0]), Sub(f.vertexes[2], f.vertexes[0]));
    DotOfFlipped(p, V);
    DotOfFlipped(p, Sub(f.vertexes[1], f.vertexes[0]));
    DotOfFlipped(p, Sub(f.vertexes[2], f.vertexes[0]));
  }

  /** `Facet.is_vertical`: the oriented normal is orthogonal to `V`. */
  predicate IsVertical(f: Facet)
    requires |f.vertexes| >= 3
  {
    Dot(HNormal(f), V) == 0.0
  }

  /**
    A facet is vertical exactly when its plane contains the projection
    direction, whichever way its normal is oriented; equivalently its first
    three vertices project onto a line.
   */
  lemma IsVerticalIff(f: Facet)
    requires |f.vertexes| >= 3
    ensures IsVertical(f) <==> Dot(PlaneNormal(f), V) == 0.0
    ensures var a, b := Sub(f.vertexes[1], f.vertexes[0]), Sub(f.vertexes[2], f.vertexes[0]);
      IsVertical(f) <==> a.x * b.y - a.y * b.x == 0.0
  {
    HNormalIsOrientedNormal(f);
  }

  /** `Facet.center`: the mean of the vertices. */
  function Center(f: Facet): Vec3
    requires |f.vertexes| > 0
  {
    Mean(f.vertexes)
  }

  /** `Facet.origin_center`: the mean of the original vertices. */
  function OriginCenter(f: Facet): Vec3
    requires |f.originVertexes| > 0
  {
    Mean(f.originVertexes)
  }

  /**
    `Facet._vert(k)`: normal of the vertical plane through the edge from
    vertex `k - 1` to vertex `k`, flipped to point away from the centre.
   */
  function Vert(f: Facet, k: nat): Vec3
    requires k < |f.vertexes|
  {
    var vs := f.vertexes;
    var n := Cross(Sub(vs[k], vs[Prev(k, |vs|)]), V);
    if Dot(n, Sub(vs[Prev(k, |vs|)], Center(f))) < 0.0 then Scale(n, -1.0) else n
  }

  /**
    The side normal is horizontal, orthogonal to its edge (so both ends of
    the edge lie on the side plane, which contains `V`), and the centre is on
    the plane's non-positive side.
   */
  lemma VertIsOutwardSide(f: Facet, k: nat)
    requires k < |f.vertexes|
    ensures Dot(Vert(f, k), V) == 0.0
    ensures Dot(Vert(f, k), Sub(f.vertexes[k], f.vertexes[Prev(k, |f.vertexes|)])) == 0.0
    ensures Dot(Vert(f, k), Sub(f.vertexes[Prev(k, |f.vertexes|)], Center(f))) >= 0.0
  {
    var vs := f.vertexes;
    var d := Sub(vs[k], vs[Prev(k, |vs|)]);
    var n := Cross(d, V);
    var toEdge := Sub(vs[Prev(k, |vs|)], Center(f));
    CrossIsOrthogonal(d, V);
    DotOfFlipped(n, V);
    DotOfFlipped(n, d);
    DotOfFlipped(n, toEdge);
  }

  /** `Facet.v_normals`: one side normal per vertex. */
  function VNormals(f: Facet): (ns: seq<Vec3>)
    requires |f.vertexes| > 0
    ensures |ns| == |f.vertexes|
  {
    seq(|f.vertexes|, k requires 0 <= k < |f.vertexes| => Vert(f, k))
  }

  function Abs(x: real): (r: real)
    ensures r >= 0.0 && (r == x || r == -x)
  {
    if x < 0.0 then -x else x
  }

  /** `Facet.center_in_unit_cube`: every coordinate of the original centre is at most 1/2 in absolute value. */
  predicate CenterInUnitCube(f: Facet)
    requires |f.originVertexes| > 0
  {
    var c := OriginCenter(f);
    Abs(c.x) <= 0.5 && Abs(c.y) <= 0.5 && Abs(c.z) <= 0.5
  }

  /** The test is the closed cube of side 1 centred at the origin. */
  lemma CenterInUnitCubeIsBox(f: Facet)
    requires |f.originVertexes| > 0
    ensures var c := OriginCenter(f);
      CenterInUnitCube(f) <==> -0.5 <= c.x <= 0.5 && -0.5 <= c.y <= 0.5 && -0.5 <= c.z <= 0.5
  {
  }

  /**
    Since the centre is the mean, the test is the same as every coordinate
    of the sum of the original vertices being at most half the vertex count
    in absolute value.
   */
  lemma CenterInUnitCubeBySum(f: Facet)
    requires |f.originVertexes| > 0
    ensures var s, h := Sum(f.originVertexes), |f.originVertexes| as real / 2.0;
      CenterInUnitCube(f) <==> -h <= s.x <= h && -h <= s.y <= h && -h <= s.z <= h
  {
    var c, s := OriginCenter(f), Sum(f.originVertexes);
    var n := |f.originVertexes| as real;
    CenterInUnitCubeIsBox(f);
    MeanScalesToSum(f.originVertexes);
    HalfBoxScales(c.x, s.x, n);
    HalfBoxScales(c.y, s.y, n);
    HalfBoxScales(c.z, s.z, n);
  }

  lemma HalfBoxScales(c: real, s: real, n: real)
    requires n > 0.0 && s == c * n
    ensures -0.5 <= c <= 0.5 <==> -(n / 2.0) <= s <= n / 2.0
  {
    if -0.5 <= c <= 0.5 {
      assert (c + 0.5) * n >= 0.0;
      assert (0.5 - c) * n >= 0.0;
    }
    if c < -0.5 {
      assert (-0.5 - c) * n > 0.0;
    }
    if c > 0.5 {
      assert (c - 0.5) * n > 0.0;
    }
  }

  // ---------------------------------------------------------------------
  // A facet at which `angle()` is undefined

  /** Exactly the vertices `(10, 0, 0)`, `(11, 0, 0)`, `(12, 0, 0)`: collinear, away from the origin. */
  predicate Collinear3(vs: seq<Vec3>) {
    && |vs| == 3
    && vs[0] == Vec3(10.0, 0.0, 0.0)
    && vs[1] == Vec3(11.0, 0.0, 0.0)
    && vs[2] == Vec3(12.0, 0.0, 0.0)
  }

  /** Such a facet has a vanishing normal, so `angle()` is undefined at it. */
  lemma CollinearNoAngle(f: Facet)
    requires Collinear3(f.vertexes)
    ensures !AngleDefined(f)
  {
    assert Sub(f.vertexes[1], f.vertexes[0]) == Vec3(1.0, 0.0, 0.0);
    assert Sub(f.vertexes[2], f.vertexes[0]) == Vec3(2.0, 0.0, 0.0);
    AngleDefinedIff(f);
  }

  /** Its original centre, `(11, 0, 0)`, lies outside the unit cube. */
  lemma CollinearOutsideCube(f: Facet)
    requires Collinear3(f.originVertexes)
    ensures !CenterInUnitCube(f)
  {
    var vs := f.originVertexes;
    MeanScalesToSum(vs);
    assert Sum(vs[..1]) == vs[0] by {
      assert vs[..1][..0] == [];
    }
    assert Sum(vs[..2]) == Vec3(21.0, 0.0, 0.0) by {
      assert vs[..2][..1] == vs[..1];
    }
    assert Sum(vs) == Vec3(33.0, 0.0, 0.0) by {
      assert vs[..2] == vs[..|vs| - 1];
    }
    var c := OriginCenter(f);
    assert c.x * 3.0 == 33.0 by {
      assert Scale(c, |vs| as real) == Sum(vs);
    }
  }

  // ---------------------------------------------------------------------
  // Floating-point measures, kept opaque

  /**
    The measures that rely on `acos` and `sqrt`: the angle between `V` and a
    normal vector, the Euclidean length of a vector, and the bound `pi / 7`.
   */
  datatype Measures = Measures(angleToV: Vec3 -> real, length: Vec3 -> real, piOver7: real)

  /**
    `Facet.angle` divides by the length of the oriented normal, so it is
    defined only when that normal is not the zero vector; otherwise the
    division raises `ZeroDivisionError`.
   */
  predicate AngleDefined(f: Facet)
    requires |f.vertexes| >= 3
  {
    HNormal(f) != Zero
  }

  /**
    The angle is undefined exactly when the first three vertices are
    collinear, that is when their plane normal vanishes.
   */
  lemma AngleDefinedIff(f: Facet)
    requires |f.vertexes| >= 3
    ensures AngleDefined(f) <==> PlaneNormal(f) != Zero
  {
    var p := PlaneNormal(f);
    if Dot(p, V) < 0.0 {
      assert HNormal(f) == Scale(p, -1.0);
      assert p == Scale(HNormal(f), -1.0);
    }
  }

  /** `Facet.angle`: the angle between `V` and the facet's oriented normal. */
  function Angle(f: Facet, m: Measures): real
    requires |f.vertexes| >= 3 && AngleDefined(f)
  {
    m.angleToV(HNormal(f))
  }

  /** `Facet.triandle_area(a, b, c)`: half the length of `(b - a) x (c - a)`. */
  function TriangleArea(a: Vec3, b: Vec3, c: Vec3, m: Measures): real {
    0.5 * m.length(Cross(Sub(b, a), Sub(c, a)))
  }

  /** The fan of triangles from `c` over the edges `es`, summed in order. */
  function FanArea(c: Vec3, es: seq<Edge>, m: Measures): (r: real)
    ensures (forall v :: m.length(v) >= 0.0) ==> r >= 0.0
  {
    if |es| == 0 then 0.0
    else FanArea(c, es[..|es| - 1], m) + TriangleArea(c, es[|es| - 1].beg, es[|es| - 1].fin, m)
  }

  /** `Facet.facet_area`: the fan from the original centre over the original edges. */
  function FacetArea(f: Facet, m: Measures): (r: real)
    requires |f.originEdges| > 0 ==> |f.originVertexes| > 0
    ensures (forall v :: m.length(v) >= 0.0) ==> r >= 0.0
  {
    if |f.originEdges| == 0 then 0.0 else FanArea(OriginCenter(f), f.originEdges, m)
  }
}

=== FILE: options.dfy ===
/**
  An optional value: the short-circuiting result of clipping a shade, and the
  result of `modification`, which is `None` when `angle()` raises.
 */
module Options {

  datatype Option<+T> = None | Some(value: T)
}

=== FILE: polyedrs.dfy ===
/**
  The polyhedron: its facets and its own list of edges. This module holds the
  de-duplication of the edge list and `modification`, which shadows every
  facet's edges with every facet and sums the area of the facets that pass
  the three-part test.
 */
module Polyedrs {
  import opened Vectors
  import opened Segments
  import opened Edges
  import opened Facets
  import opened Shadows
  import opened Options

  datatype Polyedr = Polyedr(facets: seq<Facet>, edges: seq<Edge>)

  // ---------------------------------------------------------------------
  // edges_uniq

  /** The two edges join the same two points, in either direction. */
  predicate SameEnds(a: Edge, b: Edge) {
    (a.beg == b.beg && a.fin == b.fin) || (a.beg == b.fin && a.fin == b.beg)
  }

  /** Some edge of `es` joins the same two points as `e`. */
  predicate HasRep(es: seq<Edge>, e: Edge) {
    exists k :: 0 <= k < |es| && SameEnds(es[k], e)
  }

  /** An edge before position `i` joins the same two points as `es[i]`. */
  predicate SeenBefore(es: seq<Edge>, i: nat)
    requires i < |es|
  {
    exists j :: 0 <= j < i && SameEnds(es[j], es[i])
  }

  /** Reference: in order, the edges that have no earlier edge with the same endpoints. */
  function KeepFirsts(es: seq<Edge>): seq<Edge> {
    if |es| == 0 then []
    else KeepFirsts(es[..|es| - 1]) + (if SeenBefore(es, |es| - 1) then [] else [es[|es| - 1]])
  }

  lemma SameEndsIsEquivalence(a: Edge, b: Edge, c: Edge)
    ensures SameEnds(a, a)
    ensures SameEnds(a, b) ==> SameEnds(b, a)
    ensures SameEnds(a, b) && SameEnds(b, c) ==> SameEnds(a, c)
  {
  }

  /** Every edge of `uniq` is one of the first `i` edges of `es`. */
  predicate DrawnFrom(uniq: seq<Edge>, es: seq<Edge>, i: nat)
    requires i <= |es|
  {
    forall k :: 0 <= k < |uniq| ==> exists j :: 0 <= j < i && uniq[k] == es[j]
  }

  /** No two edges of `uniq` join the same two points. */
  predicate Distinct(uniq: seq<Edge>) {
    forall a, b :: 0 <= a < b < |uniq| ==> !SameEnds(uniq[a], uniq[b])
  }

  /** Every one of the first `i` edges of `es` has a representative in `uniq`. */
  predicate Represents(uniq: seq<Edge>, es: seq<Edge>, i: nat)
    requires i <= |es|
  {
    forall j {:trigger HasRep(uniq, es[j])} :: 0 <= j < i ==> HasRep(uniq, es[j])
  }

  /** Given a kept list drawn from, and representing, the first `i` edges, the lookup answers "seen before". */
  lemma LookupIsSeenBefore(uniq: seq<Edge>, es: seq<Edge>, i: nat)
    requires i < |es|
    requires DrawnFrom(uniq, es, i) && Represents(uniq, es, i)
    ensures HasRep(uniq, es[i]) <==> SeenBefore(es, i)
  {
    if HasRep(uniq, es[i]) {
      var k :| 0 <= k < |uniq| && SameEnds(uniq[k], es[i]);
      var j :| 0 <= j < i && uniq[k] == es[j];
    }
    if SeenBefore(es, i) {
      var j :| 0 <= j < i && SameEnds(es[j], es[i]);
      assert HasRep(uniq, es[j]);
      var k :| 0 <= k < |uniq| && SameEnds(uniq[k], es[j]);
      SameEndsIsEquivalence(uniq[k], es[j], es[i]);
    }
  }

  lemma KeepFirstsStep(es: seq<Edge>, i: nat)
    requires i < |es|
    ensures KeepFirsts(es[..i + 1]) == KeepFirsts(es[..i]) + (if SeenBefore(es, i) then [] else [es[i]])
  {
    var p := es[..i + 1];
    assert p[..i] == es[..i];
    assert SeenBefore(p, i) <==> SeenBefore(es, i) by {
      if SeenBefore(p, i) {
        var j :| 0 <= j < i && SameEnds(p[j], p[i]);
        assert p[j] == es[j];
      }
      if SeenBefore(es, i) {
        var j :| 0 <= j < i && SameEnds(es[j], es[i]);
        assert p[j] == es[j];
      }
    }
  }

  /** Keeping edge `i` when it has no representative preserves the loop's facts. */
  lemma KeepStep(uniq: seq<Edge>, es: seq<Edge>, i: nat)
    requires i < |es|
    requires DrawnFrom(uniq, es, i) && Represents(uniq, es, i) && Distinct(uniq)
    ensures var u := if HasRep(uniq, es[i]) then uniq else uniq + [es[i]];
      DrawnFrom(u, es, i + 1) && Represents(u, es, i + 1) && Distinct(u)
  {
    var u := if HasRep(uniq, es[i]) then uniq else uniq + [es[i]];
    forall k | 0 <= k < |u|
      ensures exists j :: 0 <= j < i + 1 && u[k] == es[j]
    {
      if k < |uniq| {
        var j :| 0 <= j < i && uniq[k] == es[j];
        assert u[k] == es[j];
      } else {
        assert u[k] == es[i];
      }
    }
    forall j | 0 <= j < i + 1
      ensures HasRep(u, es[j])
    {
      if j < i {
        assert HasRep(uniq, es[j]);
        var k :| 0 <= k < |uniq| && SameEnds(uniq[k], es[j]);
        assert u[k] == uniq[k];
      } else if !HasRep(uniq, es[i]) {
        assert u[|u| - 1] == es[i];
        SameEndsIsEquivalence(es[i], es[i], es[i]);
      }
    }
    if !HasRep(uniq, es[i]) {
      forall a, b | 0 <= a < b < |u|
        ensures !SameEnds(u[a], u[b])
      {
        if b == |uniq| {
          assert u[b] == es[i] && u[a] == uniq[a];
        } else {
          assert u[a] == uniq[a] && u[b] == uniq[b];
        }
      }
    }
  }

  /** One step of the loop of `edges_uniq`: keep edge `i` exactly when the lookup finds no representative. */
  lemma UniqStep(uniq: seq<Edge>, es: seq<Edge>, i: nat)
    requires i < |es|
    requires uniq == KeepFirsts(es[..i])
    requires DrawnFrom(uniq, es, i) && Represents(uniq, es, i) && Distinct(uniq)
    ensures var u := if HasRep(uniq, es[i]) then uniq else uniq + [es[i]];
      && u == KeepFirsts(es[..i + 1])
      && DrawnFrom(u, es, i + 1) && Represents(u, es, i + 1) && Distinct(u)
  {
    LookupIsSeenBefore(uniq, es, i);
    KeepFirstsStep(es, i);
    KeepStep(uniq, es, i);
  }

  /** Once the loop has seen every edge, its facts give the method's promises. */
  lemma UniqDone(uniq: seq<Edge>, es: seq<Edge>)
    requires DrawnFrom(uniq, es, |es|) && Represents(uniq, es, |es|)
    ensures forall i :: 0 <= i < |es| ==> HasRep(uniq, es[i])
    ensures forall k :: 0 <= k < |uniq| ==> uniq[k] in es
  {
    forall k | 0 <= k < |uniq|
      ensures uniq[k] in es
    {
      var j :| 0 <= j < |es| && uniq[k] == es[j];
    }
  }

  /**
    `Polyedr.edges_uniq`: walk the edges in order and keep one exactly when no
    kept edge joins the same two points, in either direction. The result is
    the first edge of every class in input order: no two kept edges join the
    same points and every input edge has a kept representative.
   */
  method EdgesUniq(edges: seq<Edge>) returns (uniq: seq<Edge>)
    ensures uniq == KeepFirsts(edges)
    ensures Distinct(uniq)
    ensures forall i :: 0 <= i < |edges| ==> HasRep(uniq, edges[i])
    ensures forall k :: 0 <= k < |uniq| ==> uniq[k] in edges
  {
    uniq := [];
    var i := 0;
    while i < |edges|
      invariant 0 <= i <= |edges|
      invariant uniq == KeepFirsts(edges[..i])
      invariant DrawnFrom(uniq, edges, i) && Represents(uniq, edges, i) && Distinct(uniq)
    {
      UniqStep(uniq, edges, i);
      if !HasRep(uniq, edges[i]) {
        uniq := uniq + [edges[i]];
      }
      i := i + 1;
    }
    assert edges[..i] == edges;
    UniqDone(uniq, edges);
  }

  // ---------------------------------------------------------------------
  // modification

  predicate AllValid(fs: seq<Facet>) {
    forall i :: 0 <= i < |fs| ==> Valid(fs[i])
  }

  lemma AllValidCanCast(fs: seq<Facet>)
    requires AllValid(fs)
    ensures CanCast(fs)
    ensures forall g :: 0 <= g <= |fs| ==> CanCast(fs[..g])
  {
  }

  /** Every edge of `es` after being shadowed by every facet of `casters`, in order. */
  function ShadowEdges(es: seq<Edge>, casters: seq<Facet>): (r: seq<Edge>)
    requires CanCast(casters)
    ensures |r| == |es|
    ensures forall j :: 0 <= j < |es| ==> r[j] == ShadowAll(es[j], casters)
  {
    seq(|es|, j requires 0 <= j < |es| => ShadowAll(es[j], casters))
  }

  /** Some edge still has a gap: the `flag` of `modification`. */
  predicate KeepsGap(es: seq<Edge>) {
    exists j :: 0 <= j < |es| && |es[j].gaps| != 0
  }

  /**
    The test a facet must pass to have its area counted: its original centre
    is outside the unit cube, its angle to `V` is at most `pi / 7`, and no
    edge of its own keeps a gap once shadowed by every facet.
   */
  predicate Counts(f: Facet, casters: seq<Facet>, m: Measures)
    requires Valid(f) && CanCast(casters)
  {
    && !CenterInUnitCube(f)
    && AngleDefined(f)
    && Angle(f, m) <= m.piOver7
    && !KeepsGap(ShadowEdges(f.edges, casters))
  }

  /**
    `modification` raises at this facet: its original centre is outside the
    unit cube, so the test goes on to `angle()`, which divides by zero.
   */
  predicate Raises(f: Facet)
    requires Valid(f)
  {
    !CenterInUnitCube(f) && !AngleDefined(f)
  }

  /** A facet on three collinear points away from the origin makes `modification` raise. */
  lemma CollinearFacetRaises(a: Vec3, b: Vec3, c: Vec3)
    requires a == Vec3(10.0, 0.0, 0.0) && b == Vec3(11.0, 0.0, 0.0) && c == Vec3(12.0, 0.0, 0.0)
    ensures Valid(MakeFacet([a, b, c], [a, b, c])) && Raises(MakeFacet([a, b, c], [a, b, c]))
  {
    var f := MakeFacet([a, b, c], [a, b, c]);
    CollinearOutsideCube(f);
    CollinearNoAngle(f);
  }

  /** For each facet, whether `modification` raises when it gets there. */
  function RaiseFlags(fs: seq<Facet>): (r: seq<bool>)
    requires AllValid(fs)
    ensures |r| == |fs|
    ensures forall k :: 0 <= k < |fs| ==> r[k] == Raises(fs[k])
  {
    seq(|fs|, k requires 0 <= k < |fs| => Raises(fs[k]))
  }

  /** None of the first `i` flags is raised. */
  predicate NoneBefore(b: seq<bool>, i: nat)
    requires i <= |b|
  {
    forall k :: 0 <= k < i ==> !b[k]
  }

  /** `modification` gets to the facet at index `i`: no earlier facet raises. */
  predicate Reached(fs: seq<Facet>, i: nat)
    requires AllValid(fs) && i <= |fs|
  {
    NoneBefore(RaiseFlags(fs), i)
  }

  /** The facet with its own edges shadowed by every facet of `casters`. */
  function Shadowed(f: Facet, casters: seq<Facet>): Facet
    requires CanCast(casters)
  {
    f.(edges := ShadowEdges(f.edges, casters))
  }

  function Contribution(f: Facet, casters: seq<Facet>, m: Measures): real
    requires Valid(f) && CanCast(casters)
  {
    if Counts(f, casters, m) then FacetArea(f, m) else 0.0
  }

  /** Reference: the contributions of the facets in `visit`, summed in order. */
  function TotalArea(visit: seq<Facet>, casters: seq<Facet>, m: Measures): real
    requires AllValid(visit) && CanCast(casters)
  {
    if |visit| == 0 then 0.0
    else TotalArea(visit[..|visit| - 1], casters, m) + Contribution(visit[|visit| - 1], casters, m)
  }

  lemma KeepsGapSnoc(es: seq<Edge>, e: Edge)
    ensures KeepsGap(es + [e]) <==> KeepsGap(es) || |e.gaps| != 0
  {
    var s := es + [e];
    if KeepsGap(s) {
      var k :| 0 <= k < |s| && |s[k].gaps| != 0;
      if k < |es| { assert s[k] == es[k]; }
    }
    if KeepsGap(es) {
      var k :| 0 <= k < |es| && |es[k].gaps| != 0;
      assert s[k] == es[k];
    }
    assert s[|es|] == e;
  }

  lemma ShadowEdgesSnoc(es: seq<Edge>, j: nat, casters: seq<Facet>)
    requires CanCast(casters) && j < |es|
    ensures ShadowEdges(es[..j + 1], casters) == ShadowEdges(es[..j], casters) + [ShadowAll(es[j], casters)]
  {
    var a, b := ShadowEdges(es[..j + 1], casters), ShadowEdges(es[..j], casters) + [ShadowAll(es[j], casters)];
    assert |a| == |b|;
    forall k | 0 <= k < |a| ensures a[k] == b[k] {
      assert es[..j + 1][k] == es[k];
    }
  }

  lemma TotalAreaStep(fs: seq<Facet>, i: nat, casters: seq<Facet>, m: Measures)
    requires AllValid(fs) && CanCast(casters) && i < |fs|
    ensures AllValid(fs[..i]) && AllValid(fs[..i + 1])
    ensures TotalArea(fs[..i + 1], casters, m) == TotalArea(fs[..i], casters, m) + Contribution(fs[i], casters, m)
  {
    assert fs[..i + 1][..i] == fs[..i];
  }

  /** `for g in self.facets: e.shadow(g)`, one facet at a time. */
  method ShadowByAll(e: Edge, casters: seq<Facet>) returns (r: Edge)
    requires CanCast(casters)
    ensures r == ShadowAll(e, casters)
  {
    r := e;
    var g := 0;
    while g < |casters|
      invariant 0 <= g <= |casters|
      invariant CanCast(casters[..g])
      invariant r == ShadowAll(e, casters[..g])
    {
      var done, next := casters[..g], casters[g];
      assert casters[..g + 1] == done + [next];
      ShadowAllSnoc(e, done, next);
      r := Shadow(r, next);
      g := g + 1;
    }
    assert casters[..g] == casters;
  }

  /**
    The loop over the edges of one facet in `modification`: shadow each edge
    by every facet and raise `flag` when it keeps a gap.
   */
  method ShadowFacetEdges(f: Facet, casters: seq<Facet>) returns (shadowed: seq<Edge>, flag: bool)
    requires CanCast(casters)
    ensures shadowed == ShadowEdges(f.edges, casters)
    ensures flag <==> KeepsGap(shadowed)
  {
    flag := false;
    shadowed := [];
    var j := 0;
    while j < |f.edges|
      invariant 0 <= j <= |f.edges|
      invariant shadowed == ShadowEdges(f.edges[..j], casters)
      invariant flag <==> KeepsGap(shadowed)
    {
      var e := ShadowByAll(f.edges[j], casters);
      ShadowEdgesSnoc(f.edges, j, casters);
      KeepsGapSnoc(shadowed, e);
      if |e.gaps| != 0 {
        flag := true;
      }
      shadowed := shadowed + [e];
      j := j + 1;
    }
    assert f.edges[..j] == f.edges;
  }

  /**
    The area test of `modification` for one facet, given its shadowed edges
    and the `flag` they raised, on a facet at which `angle()` does not raise.
   */
  method FacetContribution(f: Facet, casters: seq<Facet>, m: Measures, shadowed: seq<Edge>, flag: bool)
    returns (c: real)
    requires Valid(f) && CanCast(casters) && !Raises(f)
    requires shadowed == ShadowEdges(f.edges, casters) && (flag <==> KeepsGap(shadowed))
    ensures c == Contribution(f, casters, m)
    ensures c == 0.0 || c == FacetArea(f, m)
  {
    c := 0.0;
    if !CenterInUnitCube(f) && Angle(f, m) <= m.piOver7 && !flag {
      c := FacetArea(f, m);
    }
  }

  /**
    The loop of `modification` over the facets: shadow each facet's edges
    with every facet and add up the area of those that pass the test.
    Returns `None` when `angle()` raises, and the facets as the loop leaves
    them: up to the facet that raised, if any, with their edges shadowed.
   */
  method VisitFacets(fs: seq<Facet>, m: Measures) returns (area: Option<real>, out: seq<Facet>)
    requires AllValid(fs)
    ensures CanCast(fs)
    ensures area.None? <==> exists i :: 0 <= i < |fs| && Raises(fs[i])
    ensures area.Some? ==> area.value == TotalArea(fs, fs, m)
    ensures |out| == |fs|
    ensures forall i :: 0 <= i < |fs| && Reached(fs, i) ==> out[i] == Shadowed(fs[i], fs)
    ensures forall i :: 0 <= i < |fs| && !Reached(fs, i) ==> out[i] == fs[i]
  {
    AllValidCanCast(fs);
    var raises := RaiseFlags(fs);
    var total := 0.0;
    var facets: seq<Facet> := [];
    var i := 0;
    while i < |fs|
      invariant 0 <= i <= |fs|
      invariant NoneBefore(raises, i)
      invariant total == TotalArea(fs[..i], fs, m)
      invariant |facets| == i
      invariant forall k :: 0 <= k < i ==> facets[k] == Shadowed(fs[k], fs)
    {
      var f := fs[i];
      var shadowed, flag := ShadowFacetEdges(f, fs);
      var done := facets + [f.(edges := shadowed)];
      forall k | 0 <= k <= i
        ensures done[k] == Shadowed(fs[k], fs)
      {
        if k < i {
          assert done[k] == facets[k];
        }
      }
      if raises[i] {
        // the centre is outside the unit cube and `angle()` divides by zero
        area := None;
        out := done + fs[i + 1..];
        RaisedState(fs, raises, i, done, out);
        assert Raises(fs[i]);
        return;
      }
      var c := FacetContribution(f, fs, m, shadowed, flag);
      TotalAreaStep(fs, i, fs, m);
      total := total + c;
      NoneBeforeStep(raises, i);
      facets := done;
      i := i + 1;
    }
    assert fs[..i] == fs;
    area := Some(total);
    out := facets;
    forall k | 0 <= k < |fs|
      ensures Reached(fs, k)
    {
      NoneBeforePrefix(raises, |fs|, k);
    }
  }

  /**
    `Polyedr.modification`: de-duplicate the polyhedron's edges, shadow every
    edge of every facet with every facet (the facet itself included), and add
    up `facet_area` over the facets that pass the test of `Counts`. Returns
    the area, or `None` when `angle()` raises, together with the polyhedron
    as the method leaves it: after a raise, only the facets up to and
    including the one that raised have their edges shadowed.
   */
  method Modification(p: Polyedr, m: Measures) returns (area: Option<real>, q: Polyedr)
    requires AllValid(p.facets)
    ensures CanCast(p.facets)
    ensures area.None? <==> exists i :: 0 <= i < |p.facets| && Raises(p.facets[i])
    ensures area.Some? ==> area.value == TotalArea(p.facets, p.facets, m)
    ensures q.edges == KeepFirsts(p.edges)
    ensures |q.facets| == |p.facets|
    ensures forall i :: 0 <= i < |p.facets| && Reached(p.facets, i) ==>
      q.facets[i] == Shadowed(p.facets[i], p.facets)
    ensures forall i :: 0 <= i < |p.facets| && !Reached(p.facets, i) ==>
      q.facets[i] == p.facets[i]
  {
    var uniq := EdgesUniq(p.edges);
    var facets;
    area, facets := VisitFacets(p.facets, m);
    q := Polyedr(facets, uniq);
  }

  /** With the first raised flag at index `i`, exactly the prefixes up to `i` are clear. */
  lemma FirstRaised(b: seq<bool>, i: nat, k: nat)
    requires i < |b| && k <= |b| && NoneBefore(b, i) && b[i]
    ensures NoneBefore(b, k) <==> k <= i
  {
    if k > i {
      assert i < k && b[i];
    }
  }

  /** Every prefix of a clear sequence is clear. */
  lemma NoneBeforePrefix(b: seq<bool>, i: nat, k: nat)
    requires k <= i <= |b| && NoneBefore(b, i)
    ensures NoneBefore(b, k)
  {
  }

  /** A clear prefix followed by a clear flag is a longer clear prefix. */
  lemma NoneBeforeStep(b: seq<bool>, i: nat)
    requires i < |b| && NoneBefore(b, i) && !b[i]
    ensures NoneBefore(b, i + 1)
  {
  }

  /**
    The state `modification` leaves when the facet at index `i` is the first
    to raise (`b` flags the facets that raise): the facets up to and
    including it are shadowed, the rest untouched.
   */
  lemma RaisedState(fs: seq<Facet>, b: seq<bool>, i: nat, done: seq<Facet>, r: seq<Facet>)
    requires CanCast(fs) && |b| == |fs| && i < |fs|
    requires NoneBefore(b, i) && b[i]
    requires |done| == i + 1 && forall k :: 0 <= k <= i ==> done[k] == Shadowed(fs[k], fs)
    requires r == done + fs[i + 1..]
    ensures |r| == |fs|
    ensures forall k :: 0 <= k < |fs| && NoneBefore(b, k) ==> r[k] == Shadowed(fs[k], fs)
    ensures forall k :: 0 <= k < |fs| && !NoneBefore(b, k) ==> r[k] == fs[k]
  {
    assert |r| == |fs|;
    forall k | 0 <= k < |fs|
      ensures NoneBefore(b, k) ==> r[k] == Shadowed(fs[k], fs)
      ensures !NoneBefore(b, k) ==> r[k] == fs[k]
    {
      FirstRaised(b, i, k);
      if k <= i {
        assert r[k] == done[k];
      } else {
        assert r[k] == fs[i + 1..][k - i - 1];
      }
    }
  }

  // ---------------------------------------------------------------------
  // Properties of the aggregate

  /** With lengths never negative, the total area is never negative. */
  lemma {:induction false} TotalAreaNonNegative(visit: seq<Facet>, casters: seq<Facet>, m: Measures)
    requires AllValid(visit) && CanCast(casters)
    requires forall v :: m.length(v) >= 0.0
    ensures TotalArea(visit, casters, m) >= 0.0
  {
    if |visit| > 0 {
      TotalAreaNonNegative(visit[..|visit| - 1], casters, m);
    }
  }

  lemma {:induction false} TotalAreaAppend(a: seq<Facet>, b: seq<Facet>, casters: seq<Facet>, m: Measures)
    requires AllValid(a) && AllValid(b) && CanCast(casters)
    ensures AllValid(a + b)
    ensures TotalArea(a + b, casters, m) == TotalArea(a, casters, m) + TotalArea(b, casters, m)
    decreases |b|
  {
    if |b| == 0 {
      assert a + b == a;
    } else {
      var n := |b| - 1;
      assert (a + b)[..|a + b| - 1] == a + b[..n];
      TotalAreaAppend(a, b[..n], casters, m);
    }
  }

  /** Removing one facet from the visit order removes exactly its contribution. */
  lemma TotalAreaRemove(s: seq<Facet>, i: nat, casters: seq<Facet>, m: Measures)
    requires AllValid(s) && CanCast(casters) && i < |s|
    ensures AllValid(s[..i] + s[i + 1..])
    ensures TotalArea(s, casters, m) == TotalArea(s[..i] + s[i + 1..], casters, m) + Contribution(s[i], casters, m)
  {
    assert s == s[..i] + [s[i]] + s[i + 1..];
    TotalAreaAppend(s[..i] + [s[i]], s[i + 1..], casters, m);
    TotalAreaAppend(s[..i], [s[i]], casters, m);
    TotalAreaAppend(s[..i], s[i + 1..], casters, m);
    assert TotalArea([s[i]], casters, m) == Contribution(s[i], casters, m) by {
      assert [s[i]][..0] == [];
    }
  }

  /** The total does not depend on the order in which facets are visited. */
  lemma {:induction false} TotalAreaOrderIndependent(v1: seq<Facet>, v2: seq<Facet>, casters: seq<Facet>, m: Measures)
    requires AllValid(v1) && AllValid(v2) && CanCast(casters)
    requires multiset(v1) == multiset(v2)
    ensures TotalArea(v1, casters, m) == TotalArea(v2, casters, m)
    decreases |v1|
  {
    if |v1| == 0 {
      assert |v2| == |multiset(v2)| == 0;
    } else {
      var n := |v1| - 1;
      var x := v1[n];
      assert x in multiset(v2);
      var i :| 0 <= i < |v2| && v2[i] == x;
      var rest := v2[..i] + v2[i + 1..];
      assert v2 == v2[..i] + [x] + v2[i + 1..];
      assert v1 == v1[..n] + [x];
      assert multiset(v2) == multiset(v2[..i]) + multiset{x} + multiset(v2[i + 1..]);
      assert multiset(rest) == multiset(v2[..i]) + multiset(v2[i + 1..]);
      assert multiset(v1) == multiset(v1[..n]) + multiset{x};
      assert multiset(v1[..n]) == multiset(v1) - multiset{x};
      assert multiset(rest) == multiset(v2) - multiset{x};
      TotalAreaRemove(v2, i, casters, m);
      TotalAreaOrderIndependent(v1[..n], rest, casters, m);
    }
  }

  /**
    What the gap test of `Counts` means geometrically: when every edge of the
    facet starts with non-degenerate gaps, no edge keeps a gap exactly when
    every parameter inside a gap of every edge is hidden by some facet.
   */
  lemma CountsIffEveryGapHidden(f: Facet, casters: seq<Facet>, m: Measures)
    requires Valid(f) && CanCast(casters)
    requires forall j :: 0 <= j < |f.edges| ==> AllNonDegenerate(f.edges[j].gaps)
    ensures Counts(f, casters, m) <==>
      && !CenterInUnitCube(f)
      && AngleDefined(f)
      && Angle(f, m) <= m.piOver7
      && forall j, t :: 0 <= j < |f.edges| && InOpen(f.edges[j].gaps, t) ==> CoveredByAny(f.edges[j], casters, t)
  {
    var es := ShadowEdges(f.edges, casters);
    forall j | 0 <= j < |f.edges| {
      FullyShadowedIff(f.edges[j], casters);
    }
    if KeepsGap(es) {
      var j :| 0 <= j < |es| && |es[j].gaps| != 0;
      assert !forall t :: InOpen(f.edges[j].gaps, t) ==> CoveredByAny(f.edges[j], casters, t);
    }
  }

  lemma WholeRangeOpen(gaps: seq<Segment>, t: real)
    requires gaps == [FullRange]
    ensures InOpen(gaps, t) <==> 0.0 < t < 1.0
  {
    if 0.0 < t < 1.0 { assert InInterior(gaps[0], t); }
  }

  /**
    For a facet as built from its vertices, whose edges still hold the whole
    range as their one gap, the gap test passes exactly when every parameter
    strictly between 0 and 1 of every edge is hidden by some facet.
   */
  lemma FreshFacetCountsIffEdgesHidden(f: Facet, casters: seq<Facet>, m: Measures)
    requires Valid(f) && CanCast(casters)
    requires forall j :: 0 <= j < |f.edges| ==> f.edges[j].gaps == [FullRange]
    ensures Counts(f, casters, m) <==>
      && !CenterInUnitCube(f)
      && AngleDefined(f)
      && Angle(f, m) <= m.piOver7
      && forall j, t :: 0 <= j < |f.edges| && 0.0 < t < 1.0 ==> CoveredByAny(f.edges[j], casters, t)
  {
    assert forall j, t :: 0 <= j < |f.edges| ==> (InOpen(f.edges[j].gaps, t) <==> 0.0 < t < 1.0) by {
      forall j, t | 0 <= j < |f.edges|
        ensures InOpen(f.edges[j].gaps, t) <==> 0.0 < t < 1.0
      {
        WholeRangeOpen(f.edges[j].gaps, t);
      }
    }
    assert forall j :: 0 <= j < |f.edges| ==> AllNonDegenerate(f.edges[j].gaps) by {
      forall j | 0 <= j < |f.edges|
        ensures AllNonDegenerate(f.edges[j].gaps)
      {
        assert f.edges[j].gaps == [FullRange];
      }
    }
    CountsIffEveryGapHidden(f, casters, m);
  }

  /** A facet straight from its vertices meets the premise above. */
  lemma MadeFacetIsFresh(vs: seq<Vec3>, ovs: seq<Vec3>)
    requires |vs| >= 3 && |ovs| == |vs|
    ensures Valid(MakeFacet(vs, ovs))
    ensures forall j :: 0 <= j < |MakeFacet(vs, ovs).edges| ==> MakeFacet(vs, ovs).edges[j].gaps == [FullRange]
  {
  }
}

=== FILE: segments.dfy ===
/**
  One-dimensional closed segments `[beg, fin]` over the parameter of an edge.

  A segment with `beg >= fin` is degenerate; that is the engine's only notion
  of "empty". The segment's points are the reals `t` with `beg <= t <= fin`
  and its interior the reals with `beg < t < fin`, so a degenerate segment has
  no interior and at most one point.
 */
module Segments {

  datatype Segment = Segment(beg: real, fin: real)

  predicate IsDegenerate(s: Segment) {
    s.beg >= s.fin
  }

  predicate Contains(s: Segment, t: real) {
    s.beg <= t <= s.fin
  }

  predicate InInterior(s: Segment, t: real) {
    s.beg < t < s.fin
  }

  predicate Within(inner: Segment, outer: Segment) {
    outer.beg <= inner.beg && inner.fin <= outer.fin
  }

  /** A degenerate segment has an empty interior; a non-degenerate one has a point inside. */
  lemma DegenerateIffNoInterior(s: Segment)
    ensures IsDegenerate(s) <==> forall t :: !InInterior(s, t)
  {
    if !IsDegenerate(s) {
      assert InInterior(s, (s.beg + s.fin) / 2.0);
    }
  }

  /**
    `Segment.intersect`: raise `beg` to the other's `beg` when that is larger
    and lower `fin` to the other's `fin` when that is smaller.
   */
  function Intersect(a: Segment, b: Segment): (r: Segment)
    ensures r.beg >= a.beg && r.beg >= b.beg && (r.beg == a.beg || r.beg == b.beg)
    ensures r.fin <= a.fin && r.fin <= b.fin && (r.fin == a.fin || r.fin == b.fin)
    ensures Within(r, a) && Within(r, b)
    ensures forall t :: Contains(r, t) <==> Contains(a, t) && Contains(b, t)
    ensures forall t :: InInterior(r, t) <==> InInterior(a, t) && InInterior(b, t)
    ensures IsDegenerate(a) || IsDegenerate(b) ==> IsDegenerate(r)
    ensures a == b ==> r == a
  {
    Segment(if b.beg > a.beg then b.beg else a.beg, if b.fin < a.fin then b.fin else a.fin)
  }

  /** The order of the operands does not matter to the resulting range. */
  lemma IntersectCommutes(a: Segment, b: Segment)
    ensures Intersect(a, b) == Intersect(b, a)
  {
  }

  /**
    `Segment.subtraction`: always two pieces, the part of `a` left of `b`
    and the part of `a` right of `b`, either of which may be degenerate.
   */
  function Subtraction(a: Segment, b: Segment): (r: seq<Segment>)
    ensures |r| == 2
    ensures r[0].beg == a.beg && r[0].fin <= b.beg
    ensures r[1].fin == a.fin && r[1].beg >= b.fin
    ensures Within(r[0], a) && Within(r[1], a)
    ensures forall t :: Contains(r[0], t) || Contains(r[1], t) <==> Contains(a, t) && !InInterior(b, t)
    ensures forall t :: InInterior(r[0], t) || InInterior(r[1], t) <==> InInterior(a, t) && !Contains(b, t)
    ensures Within(a, b) ==> IsDegenerate(r[0]) && IsDegenerate(r[1])
  {
    [Segment(a.beg, if a.fin < b.beg then a.fin else b.beg),
     Segment(if a.beg > b.fin then a.beg else b.fin, a.fin)]
  }

  /** The length of a segment, counting a degenerate one as empty. */
  function Length(s: Segment): real {
    if IsDegenerate(s) then 0.0 else s.fin - s.beg
  }

  /** Cutting a non-degenerate `b` out of `a` leaves pieces no longer than `a` altogether. */
  lemma SubtractionShrinks(a: Segment, b: Segment)
    requires !IsDegenerate(b)
    ensures Length(Subtraction(a, b)[0]) + Length(Subtraction(a, b)[1]) <= Length(a)
  {
  }
}

=== FILE: shadows.dfy ===
/**
  `Edge.shadow`: the part of an edge hidden by one facet, and its removal from
  the edge's gaps.

  A facet hides the points of an edge that lie on the negative side of every
  side plane (each side's horizontal normal turned away from the vertex mean)
  and on the far side of the facet's own plane as seen along `V` (the negative
  side of the oriented plane normal). For a convex facet the side half-spaces
  meet in the vertical prism over the facet. The shade is computed as a fold of half-space clips that stops as
  soon as the shade becomes degenerate; `FullShade` is the same intersection
  without stopping early, and the two are proved to agree.
 */
module Shadows {
  import opened Vectors
  import opened Segments
  import opened Edges
  import opened Facets
  import opened Options

  /** A half-space `n . (p - point) < 0`, given by a point on its plane and the outward normal. */
  datatype HalfSpace = HalfSpace(point: Vec3, normal: Vec3)

  function Clip(e: Edge, h: HalfSpace): Segment {
    IntersectEdgeWithNormal(e, h.point, h.normal)
  }

  /** `zip(facet.vertexes, facet.v_normals())`: the vertical side half-spaces. */
  function Sides(f: Facet): (hs: seq<HalfSpace>)
    requires |f.vertexes| > 0
    ensures |hs| == |f.vertexes|
  {
    var ns := VNormals(f);
    seq(|f.vertexes|, k requires 0 <= k < |f.vertexes| => HalfSpace(f.vertexes[k], ns[k]))
  }

  /** The half-space bounded by the facet's own plane, its normal oriented along `V`. */
  function Below(f: Facet): HalfSpace
    requires |f.vertexes| >= 3
  {
    HalfSpace(f.vertexes[0], HNormal(f))
  }

  /** Every clip in `hs` contains `t`. */
  predicate InAllClips(e: Edge, hs: seq<HalfSpace>, t: real) {
    forall k :: 0 <= k < |hs| ==> Contains(Clip(e, hs[k]), t)
  }

  /** Reference: `shade` intersected with every clip in `hs`, without stopping early. */
  function IntersectAll(e: Edge, hs: seq<HalfSpace>, shade: Segment): (r: Segment)
    ensures Within(r, shade)
    ensures IsDegenerate(shade) ==> IsDegenerate(r)
  {
    if |hs| == 0 then shade else IntersectAll(e, hs[1..], Intersect(shade, Clip(e, hs[0])))
  }

  /** A parameter is in the intersection exactly when it is in the start and in every clip. */
  lemma {:induction false} IntersectAllMembership(e: Edge, hs: seq<HalfSpace>, shade: Segment, t: real)
    ensures Contains(IntersectAll(e, hs, shade), t) <==> Contains(shade, t) && InAllClips(e, hs, t)
    decreases |hs|
  {
    if |hs| > 0 {
      IntersectAllMembership(e, hs[1..], Intersect(shade, Clip(e, hs[0])), t);
      if Contains(Clip(e, hs[0]), t) && InAllClips(e, hs[1..], t) {
        forall k | 0 <= k < |hs|
          ensures Contains(Clip(e, hs[k]), t)
        {
          if k > 0 { assert hs[k] == hs[1..][k - 1]; }
        }
      }
      if InAllClips(e, hs, t) {
        forall k | 0 <= k < |hs[1..]|
          ensures Contains(Clip(e, hs[1..][k]), t)
        {
          assert hs[1..][k] == hs[k + 1];
        }
      }
    }
  }

  /**
    The loop over the side half-spaces of `Edge.shadow`: intersect the shade
    with each clip in turn and give up (None) as soon as it is degenerate.
   */
  function ClipSides(e: Edge, hs: seq<HalfSpace>, shade: Segment): Option<Segment> {
    if |hs| == 0 then Some(shade)
    else
      var s := Intersect(shade, Clip(e, hs[0]));
      if IsDegenerate(s) then None else ClipSides(e, hs[1..], s)
  }

  /**
    Stopping early loses nothing: the fold yields the reference intersection
    when that is non-degenerate, and None exactly when it is degenerate.
   */
  lemma {:induction false} ClipSidesAgrees(e: Edge, hs: seq<HalfSpace>, shade: Segment)
    requires !IsDegenerate(shade)
    ensures ClipSides(e, hs, shade)
         == if IsDegenerate(IntersectAll(e, hs, shade)) then None else Some(IntersectAll(e, hs, shade))
    decreases |hs|
  {
    if |hs| > 0 {
      var s := Intersect(shade, Clip(e, hs[0]));
      if !IsDegenerate(s) {
        ClipSidesAgrees(e, hs[1..], s);
      }
    }
  }

  /** The full shade: the whole range clipped by every side half-space and by the facet's plane. */
  function FullShade(e: Edge, f: Facet): (s: Segment)
    requires |f.vertexes| >= 3
    ensures Within(s, FullRange)
  {
    Intersect(IntersectAll(e, Sides(f), FullRange), Clip(e, Below(f)))
  }

  lemma FullShadeMembership(e: Edge, f: Facet, t: real)
    requires |f.vertexes| >= 3
    ensures Contains(FullShade(e, f), t) <==>
      Contains(FullRange, t) && InAllClips(e, Sides(f), t) && Contains(Clip(e, Below(f)), t)
  {
    IntersectAllMembership(e, Sides(f), FullRange, t);
  }

  /**
    The shade `Edge.shadow` computes: nothing for a vertical facet or when a
    clip empties it, otherwise the full shade, which is then non-degenerate.
   */
  function ShadeOf(e: Edge, f: Facet): Option<Segment>
    requires |f.vertexes| >= 3
  {
    if IsVertical(f) then None
    else
      match ClipSides(e, Sides(f), FullRange)
      case None => None
      case Some(s) =>
        var shade := Intersect(s, Clip(e, Below(f)));
        if IsDegenerate(shade) then None else Some(shade)
  }

  /** What `ShadeOf` computes is the full shade, given up when vertical or degenerate. */
  lemma ShadeOfIsFullShade(e: Edge, f: Facet)
    requires |f.vertexes| >= 3
    ensures ShadeOf(e, f) == if IsVertical(f) || IsDegenerate(FullShade(e, f)) then None else Some(FullShade(e, f))
  {
    ClipSidesAgrees(e, Sides(f), FullRange);
  }

  /**
    The shade of the whole clip fold lies between the open and the closed
    intersection of the side half-spaces and the half-space below the facet's
    plane: a parameter of the shade lies inside or on every side plane and the
    facet's plane, and a parameter strictly inside all of them is in the shade.
   */
  lemma FullShadeIsShadowVolume(e: Edge, f: Facet, t: real)
    requires |f.vertexes| >= 3
    requires SBeg <= t <= SFin
    ensures Contains(FullShade(e, f), t) ==>
      && (forall k :: 0 <= k < |f.vertexes| ==> SignedDistance(PointAt(e, t), f.vertexes[k], VNormals(f)[k]) <= 0.0)
      && SignedDistance(PointAt(e, t), f.vertexes[0], HNormal(f)) <= 0.0
    ensures
      && (forall k :: 0 <= k < |f.vertexes| ==> SignedDistance(PointAt(e, t), f.vertexes[k], VNormals(f)[k]) < 0.0)
      && SignedDistance(PointAt(e, t), f.vertexes[0], HNormal(f)) < 0.0
      ==> Contains(FullShade(e, f), t)
  {
    var hs, p := Sides(f), PointAt(e, t);
    FullShadeMembership(e, f, t);
    assert InAllClips(e, hs, t) ==>
      forall k :: 0 <= k < |f.vertexes| ==> SignedDistance(p, f.vertexes[k], VNormals(f)[k]) <= 0.0 by {
      if InAllClips(e, hs, t) {
        forall k | 0 <= k < |f.vertexes|
          ensures SignedDistance(p, f.vertexes[k], VNormals(f)[k]) <= 0.0
        {
          assert Contains(Clip(e, hs[k]), t);
          ClipIsHalfSpace(e, f.vertexes[k], VNormals(f)[k], t);
        }
      }
    }
    assert (forall k :: 0 <= k < |f.vertexes| ==> SignedDistance(p, f.vertexes[k], VNormals(f)[k]) < 0.0) ==>
      InAllClips(e, hs, t) by {
      if forall k :: 0 <= k < |f.vertexes| ==> SignedDistance(p, f.vertexes[k], VNormals(f)[k]) < 0.0 {
        forall k | 0 <= k < |hs|
          ensures Contains(Clip(e, hs[k]), t)
        {
          assert SignedDistance(p, f.vertexes[k], VNormals(f)[k]) < 0.0;
          ClipIsHalfSpace(e, f.vertexes[k], VNormals(f)[k], t);
        }
      }
    }
    ClipIsHalfSpace(e, f.vertexes[0], HNormal(f), t);
  }

  /** A facet hides parameter `t` of edge `e`. */
  predicate Covers(e: Edge, f: Facet, t: real)
    requires |f.vertexes| >= 3
  {
    !IsVertical(f) && !IsDegenerate(FullShade(e, f)) && Contains(FullShade(e, f), t)
  }

  /** The shade depends only on where the edge is, not on its gaps. */
  lemma ShadeIgnoresGaps(e: Edge, e': Edge, f: Facet)
    requires |f.vertexes| >= 3
    requires e.beg == e'.beg && e.fin == e'.fin
    ensures FullShade(e, f) == FullShade(e', f)
  {
    IntersectAllIgnoresGaps(e, e', Sides(f), FullRange);
  }

  lemma {:induction false} IntersectAllIgnoresGaps(e: Edge, e': Edge, hs: seq<HalfSpace>, shade: Segment)
    requires e.beg == e'.beg && e.fin == e'.fin
    ensures IntersectAll(e, hs, shade) == IntersectAll(e', hs, shade)
    decreases |hs|
  {
    if |hs| > 0 {
      assert Clip(e, hs[0]) == Clip(e', hs[0]);
      IntersectAllIgnoresGaps(e, e', hs[1..], Intersect(shade, Clip(e, hs[0])));
    }
  }

  lemma RefinesReflexive(ss: seq<Segment>)
    ensures Refines(ss, ss)
  {
    forall k | 0 <= k < |ss|
      ensures CoveredBy(ss[k], ss)
    {
      assert Within(ss[k], ss[k]);
    }
  }

  /**
    `Edge.shadow(facet)`: the gaps are left as they were when there is no
    shade, and otherwise lose the shade. Either way the new gaps lie within
    old ones, stay non-degenerate if they were, and their total length does
    not grow.
   */
  function Shadow(e: Edge, f: Facet): (r: Edge)
    requires |f.vertexes| >= 3
    ensures r.beg == e.beg && r.fin == e.fin
  {
    match ShadeOf(e, f)
    case None => e
    case Some(shade) => Edge(e.beg, e.fin, CutShade(e.gaps, shade))
  }

  /** The new gaps lie within old ones, stay non-degenerate if they were, and do not grow in length. */
  lemma ShadowShrinks(e: Edge, f: Facet)
    requires |f.vertexes| >= 3
    ensures Refines(Shadow(e, f).gaps, e.gaps)
    ensures AllNonDegenerate(e.gaps) ==> AllNonDegenerate(Shadow(e, f).gaps)
    ensures Measure(Shadow(e, f).gaps) <= Measure(e.gaps)
  {
    RefinesReflexive(e.gaps);
  }

  /**
    The two cases of `Edge.shadow`: a vertical facet or an empty shade
    leaves the edge exactly as it was; otherwise only non-degenerate gaps
    remain and none of them reaches into the shade's interior.
   */
  lemma ShadowCases(e: Edge, f: Facet)
    requires |f.vertexes| >= 3
    ensures IsVertical(f) || IsDegenerate(FullShade(e, f)) ==> Shadow(e, f) == e
    ensures !IsVertical(f) && !IsDegenerate(FullShade(e, f)) ==>
      && AllNonDegenerate(Shadow(e, f).gaps)
      && forall k, t :: 0 <= k < |Shadow(e, f).gaps| && Contains(Shadow(e, f).gaps[k], t) ==> !InInterior(FullShade(e, f), t)
  {
    ShadeOfIsFullShade(e, f);
  }

  /** A parameter stays strictly inside a gap exactly when it was and the facet does not hide it. */
  lemma ShadowOpen(e: Edge, f: Facet, t: real)
    requires |f.vertexes| >= 3
    ensures InOpen(Shadow(e, f).gaps, t) <==> InOpen(e.gaps, t) && !Covers(e, f, t)
  {
    ShadeOfIsFullShade(e, f);
  }

  /** Casters the model can shadow with: each has at least three vertices. */
  predicate CanCast(fs: seq<Facet>) {
    forall i :: 0 <= i < |fs| ==> |fs[i].vertexes| >= 3
  }

  lemma CanCastTail(fs: seq<Facet>)
    requires CanCast(fs) && |fs| > 0
    ensures CanCast(fs[1..])
  {
    forall i | 0 <= i < |fs[1..]|
      ensures |fs[1..][i].vertexes| >= 3
    {
      assert fs[1..][i] == fs[i + 1];
    }
  }

  /** Some facet of `fs` hides parameter `t` of `e`. */
  predicate CoveredByAny(e: Edge, fs: seq<Facet>, t: real)
    requires CanCast(fs)
  {
    |fs| > 0 && (Covers(e, fs[0], t) || CoveredByAny(e, fs[1..], t))
  }

  /** `for g in facets: e.shadow(g)`: `Shadow` folded over the facets from the left. */
  function ShadowAll(e: Edge, fs: seq<Facet>): (r: Edge)
    requires CanCast(fs)
    ensures r.beg == e.beg && r.fin == e.fin
    decreases |fs|
  {
    if |fs| == 0 then e
    else
      CanCastTail(fs);
      ShadowAll(Shadow(e, fs[0]), fs[1..])
  }

  /**
    The gaps keep shrinking under every facet: they stay within the old gaps
    (hence within `[0, 1]` if they started there), stay non-degenerate if they
    started so, and their total length does not grow.
   */
  lemma {:induction false} ShadowAllShrinks(e: Edge, fs: seq<Facet>)
    requires CanCast(fs)
    ensures Refines(ShadowAll(e, fs).gaps, e.gaps)
    ensures AllWithin(e.gaps, FullRange) ==> AllWithin(ShadowAll(e, fs).gaps, FullRange)
    ensures AllNonDegenerate(e.gaps) ==> AllNonDegenerate(ShadowAll(e, fs).gaps)
    ensures Measure(ShadowAll(e, fs).gaps) <= Measure(e.gaps)
    decreases |fs|
  {
    var r := ShadowAll(e, fs);
    if |fs| == 0 {
      RefinesReflexive(e.gaps);
    } else {
      CanCastTail(fs);
      var e1 := Shadow(e, fs[0]);
      assert r == ShadowAll(e1, fs[1..]);
      ShadowShrinks(e, fs[0]);
      ShadowAllShrinks(e1, fs[1..]);
      RefinesTransitive(r.gaps, e1.gaps, e.gaps);
      if AllWithin(e.gaps, FullRange) {
        RefinesKeepsWithin(r.gaps, e.gaps, FullRange);
      }
    }
  }

  /** A parameter stays strictly inside a gap after every facet exactly when it was and no facet hides it. */
  lemma {:induction false} ShadowAllOpen(e: Edge, fs: seq<Facet>, t: real)
    requires CanCast(fs)
    ensures InOpen(ShadowAll(e, fs).gaps, t) <==> InOpen(e.gaps, t) && !CoveredByAny(e, fs, t)
    decreases |fs|
  {
    if |fs| > 0 {
      CanCastTail(fs);
      var e1 := Shadow(e, fs[0]);
      assert ShadowAll(e, fs) == ShadowAll(e1, fs[1..]);
      ShadowOpen(e, fs[0], t);
      ShadowAllOpen(e1, fs[1..], t);
      CoveredByAnyIgnoresGaps(e1, e, fs[1..], t);
    }
  }

  lemma {:induction false} CoveredByAnyIgnoresGaps(e: Edge, e': Edge, fs: seq<Facet>, t: real)
    requires CanCast(fs)
    requires e.beg == e'.beg && e.fin == e'.fin
    ensures CoveredByAny(e, fs, t) <==> CoveredByAny(e', fs, t)
    decreases |fs|
  {
    if |fs| > 0 {
      ShadeIgnoresGaps(e, e', fs[0]);
      CoveredByAnyIgnoresGaps(e, e', fs[1..], t);
    }
  }

  /** The first facet of `fs` that hides parameter `t`. */
  function CoveringFacet(e: Edge, fs: seq<Facet>, t: real): (i: nat)
    requires CanCast(fs) && CoveredByAny(e, fs, t)
    ensures i < |fs| && Covers(e, fs[i], t)
    ensures forall j :: 0 <= j < i ==> !Covers(e, fs[j], t)
    decreases |fs|
  {
    if Covers(e, fs[0], t) then 0
    else
      CanCastTail(fs);
      assert CoveredByAny(e, fs[1..], t);
      var i := CoveringFacet(e, fs[1..], t);
      assert forall j :: 1 <= j <= i ==> fs[j] == fs[1..][j - 1];
      i + 1
  }

  /** Any facet of the list that hides the parameter makes `CoveredByAny` hold. */
  lemma {:induction false} CoveredByAnyFromFacet(e: Edge, fs: seq<Facet>, t: real, i: nat)
    requires CanCast(fs) && i < |fs| && Covers(e, fs[i], t)
    ensures CoveredByAny(e, fs, t)
    decreases i
  {
    if i > 0 {
      CanCastTail(fs);
      assert fs[1..][i - 1] == fs[i];
      CoveredByAnyFromFacet(e, fs[1..], t, i - 1);
    }
  }

  /** `CoveredByAny` says what its name says: some facet of the list hides the parameter. */
  lemma CoveredByAnyIsSomeFacet(e: Edge, fs: seq<Facet>, t: real)
    requires CanCast(fs)
    ensures CoveredByAny(e, fs, t) <==> exists i :: 0 <= i < |fs| && Covers(e, fs[i], t)
  {
    if CoveredByAny(e, fs, t) {
      var i := CoveringFacet(e, fs, t);
    } else if exists i :: 0 <= i < |fs| && Covers(e, fs[i], t) {
      var i :| 0 <= i < |fs| && Covers(e, fs[i], t);
      CoveredByAnyFromFacet(e, fs, t, i);
      assert false;
    }
  }

  /** Shadowing by one more facet extends the fold: `ShadowAll` is a left fold of `Shadow`. */
  lemma {:induction false} ShadowAllSnoc(e: Edge, fs: seq<Facet>, g: Facet)
    requires CanCast(fs) && |g.vertexes| >= 3
    ensures CanCast(fs + [g])
    ensures ShadowAll(e, fs + [g]) == Shadow(ShadowAll(e, fs), g)
    decreases |fs|
  {
    if |fs| > 0 {
      assert (fs + [g])[1..] == fs[1..] + [g];
      ShadowAllSnoc(Shadow(e, fs[0]), fs[1..], g);
    }
  }

  /** Vertical facets cast no shadow, in any number. */
  lemma {:induction false} VerticalFacetsChangeNothing(e: Edge, fs: seq<Facet>)
    requires CanCast(fs)
    requires forall i :: 0 <= i < |fs| ==> IsVertical(fs[i])
    ensures ShadowAll(e, fs) == e
    decreases |fs|
  {
    if |fs| > 0 {
      VerticalFacetsChangeNothing(Shadow(e, fs[0]), fs[1..]);
    }
  }

  /**
    An edge whose gaps are all non-degenerate ends with no gap at all exactly
    when every parameter in the interior of some gap is hidden by some facet.
   */
  lemma FullyShadowedIff(e: Edge, fs: seq<Facet>)
    requires CanCast(fs)
    requires AllNonDegenerate(e.gaps)
    ensures |ShadowAll(e, fs).gaps| == 0 <==> forall t :: InOpen(e.gaps, t) ==> CoveredByAny(e, fs, t)
  {
    var r := ShadowAll(e, fs);
    ShadowAllShrinks(e, fs);
    EmptyIffNoOpenPoint(r.gaps);
    forall t {
      ShadowAllOpen(e, fs, t);
    }
  }
}

=== FILE: vectors.dfy ===
/**
  Three-dimensional points and vectors with exact real coordinates.

  This stands in for the `R3` value type the shadow engine imports: only the
  operations the engine uses are defined here (sum, difference, scaling by a
  number on the right, dot and cross products, and the left-to-right sum of
  a list of points that starts from the origin).
 */
module Vectors {

  datatype Vec3 = Vec3(x: real, y: real, z: real)

  const Zero: Vec3 := Vec3(0.0, 0.0, 0.0)

  function Add(a: Vec3, b: Vec3): Vec3 {
    Vec3(a.x + b.x, a.y + b.y, a.z + b.z)
  }

  function Sub(a: Vec3, b: Vec3): Vec3 {
    Vec3(a.x - b.x, a.y - b.y, a.z - b.z)
  }

  /** `v * k` of the point type: every coordinate multiplied by `k`. */
  function Scale(v: Vec3, k: real): Vec3 {
    Vec3(v.x * k, v.y * k, v.z * k)
  }

  function Dot(a: Vec3, b: Vec3): real {
    a.x * b.x + a.y * b.y + a.z * b.z
  }

  function Cross(a: Vec3, b: Vec3): Vec3 {
    Vec3(a.y * b.z - a.z * b.y, a.z * b.x - a.x * b.z, a.x * b.y - a.y * b.x)
  }

  /** The cross product is orthogonal to both of its factors. */
  lemma CrossIsOrthogonal(a: Vec3, b: Vec3)
    ensures Dot(Cross(a, b), a) == 0.0
    ensures Dot(Cross(a, b), b) == 0.0
  {
    var c := Cross(a, b);
    assert Dot(c, a) == a.x * (a.y * b.z - a.z * b.y) + a.y * (a.z * b.x - a.x * b.z) + a.z * (a.x * b.y - a.y * b.x);
    assert Dot(c, b) == b.x * (a.y * b.z - a.z * b.y) + b.y * (a.z * b.x - a.x * b.z) + b.z * (a.x * b.y - a.y * b.x);
  }

  /** The dot product is linear in its second factor. */
  lemma DotIsLinear(n: Vec3, a: Vec3, b: Vec3, k: real)
    ensures Dot(n, Add(a, b)) == Dot(n, a) + Dot(n, b)
    ensures Dot(n, Sub(a, b)) == Dot(n, a) - Dot(n, b)
    ensures Dot(n, Scale(a, k)) == k * Dot(n, a)
  {
  }

  /** Flipping a vector flips its dot product with anything. */
  lemma DotOfFlipped(a: Vec3, b: Vec3)
    ensures Dot(Scale(a, -1.0), b) == -Dot(a, b)
  {
  }

  /** `sum(vs, R3(0, 0, 0))`: the points added left to right, starting from the origin. */
  function Sum(vs: seq<Vec3>): Vec3
  {
    if |vs| == 0 then Zero else Add(Sum(vs[..|vs| - 1]), vs[|vs| - 1])
  }

  /** The offsets of every point from `c`. */
  function Offsets(vs: seq<Vec3>, c: Vec3): (r: seq<Vec3>)
    ensures |r| == |vs|
    ensures forall i :: 0 <= i < |vs| ==> r[i] == Sub(vs[i], c)
  {
    seq(|vs|, i requires 0 <= i < |vs| => Sub(vs[i], c))
  }

  /** Summing the offsets from `c` subtracts `c` once per point. */
  lemma {:induction false} SumOfOffsets(vs: seq<Vec3>, c: Vec3)
    ensures Sum(Offsets(vs, c)) == Sub(Sum(vs), Scale(c, |vs| as real))
  {
    if |vs| > 0 {
      var n := |vs|;
      var init := vs[..n - 1];
      assert Offsets(vs, c)[..n - 1] == Offsets(init, c);
      SumOfOffsets(init, c);
      var s := Sum(init);
      var k := (n - 1) as real;
      assert Sum(Offsets(init, c)) == Sub(s, Scale(c, k));
      assert c.x * (k + 1.0) == c.x * k + c.x;
      assert c.y * (k + 1.0) == c.y * k + c.y;
      assert c.z * (k + 1.0) == c.z * k + c.z;
    }
  }

  /**
    The arithmetic mean of a non-empty list of points, computed as the sum
    multiplied by the reciprocal of the count. The result is the unique point
    from which the offsets of all points sum to zero.
   */
  function Mean(vs: seq<Vec3>): Vec3
    requires |vs| > 0
  {
    Scale(Sum(vs), 1.0 / (|vs| as real))
  }

  /** The mean scaled back by the count is the sum. */
  lemma MeanScalesToSum(vs: seq<Vec3>)
    requires |vs| > 0
    ensures Scale(Mean(vs), |vs| as real) == Sum(vs)
  {
    var s := Sum(vs);
    var n := |vs| as real;
    ScaleBack(s.x, n);
    ScaleBack(s.y, n);
    ScaleBack(s.z, n);
  }

  /** The offsets of the points from their mean cancel out. */
  lemma MeanIsCentroid(vs: seq<Vec3>)
    requires |vs| > 0
    ensures Sum(Offsets(vs, Mean(vs))) == Zero
  {
    MeanScalesToSum(vs);
    SumOfOffsets(vs, Mean(vs));
  }

  lemma ScaleBack(a: real, n: real)
    requires n > 0.0
    ensures a * (1.0 / n) * n == a
  {
  }

  /** No other point has offsets summing to zero: the mean is characterised by that property. */
  lemma {:induction false} MeanIsUnique(vs: seq<Vec3>, c: Vec3)
    requires |vs| > 0
    requires Sum(Offsets(vs, c)) == Zero
    ensures c == Mean(vs)
  {
    SumOfOffsets(vs, c);
    MeanScalesToSum(vs);
    var n := |vs| as real;
    var m := Mean(vs);
    assert Scale(c, n) == Sum(vs) == Scale(m, n);
    assert c.x * n == m.x * n && c.y * n == m.y * n && c.z * n == m.z * n;
  }
}
